=== FILE: README.md ===
# In-memory users, products and orders — a Dafny model

This project models the three in-memory resource services of a small NestJS
backend and the request bodies they accept. Users, products and orders are each
kept in a keyed, insertion-ordered store. The centre of the model is the
**order composition engine** in `OrderService`:

- **Create and full update** look up every requested product in the live
  product catalog through `ProductService.findOne`.
- **Prices come from the catalog.** Each stored line takes the catalog's
  current price, and the order total is the sum of price × quantity.
- **Atomic abort.** If any product is missing, the operation returns nothing
  and the order store is left as it was.
- **Field ownership.** A full update replaces the user id, the lines and the
  total. A patch sets only the status. Neither touches the id or the creation
  time.
- **Queries** list orders in insertion order and filter them by user or by
  status.

The model is functional. Each service operation is a pure state transition.
It takes the store, the request, and the fresh id and current time where the
source reads `Date.now()` or `new Date()`. It returns a `Step`: the store
afterwards and the operation's result (`Option` where the source may return
`null`). Prices are natural numbers of cents (999.99 is `99999`). Timestamps
are integers of milliseconds since the epoch.

Modules, one per file:

- `Wrappers`: `Option`.
- `Seqs`: order-preserving `Filter` and `Distinct`.
- `KeyedStore`: the JavaScript `Map` as a key sequence plus a map, with
  `Put`, `Delete`, `Values` and their frame properties.
- `Json`: a request body, plus the per-field checks of the validation
  decorators.
- `SampleTime`: the timestamps of the sample data.
- `OrderDto`, `ProductDto`, `UserDto`: the request records, the stored
  records and the body validators.
- `ProductService`, `UserService`, `OrderService`: the three services.
- `OrderSystem`: properties that span the catalog, the order store and the
  request check. These include the worked scenarios, price snapshots, and
  the counterexample for the finding below.

No catalog operation takes the order store as an input. So a stored order
line holds the price it was composed with, not a reference to the product,
and `OrderSystem.LineIsPriceSnapshot` shows the difference on the sample data.

The invariant `OrderService.Inv` holds for every order store reachable from
the sample data through create and update requests accepted by
`OrderDto.ValidateCreateOrder`, and patches whose status is absent or one of
the five names. It does not hold for every request the application's own
pipe accepts: the finding below lets a negative quantity through, and a
patch with an explicit `null` status stores `null` (see "## Left out"). It says three things about each
stored order:

- it sits under its own id;
- its total is the sum over its lines, and every line has a quantity of at
  least 1;
- its status is one of the five status names.

## Model

| member | source | states |
|---|---|---|
| Seqs.Filter | src/services/order.service.ts:58-60 | the result holds exactly the input elements that pass the test, each of them passing it |
| Seqs.FilterPositions | src/services/order.service.ts:166-170 | the kept positions are strictly increasing and are exactly the positions whose element passes, and the result reads the input at them: exactly the matching entries, in listing order |
| Seqs.FilterAppend | src/services/product.service.ts:52-56 | filtering a concatenation is the concatenation of the filtered parts, so filtered listings keep insertion order |
| KeyedStore.Get | src/services/order.service.ts:64 | `Map.get` on a valid store finds a record exactly for a listed key, and it is the record the listing shows at that key's position |
| KeyedStore.Values | src/services/order.service.ts:54 | `Array.from(map.values())` has one entry per listed key, the record stored under the key at the same position |
| KeyedStore.Put | src/services/order.service.ts:101 | after `Map.set` the id holds the new record and every other id holds what it held; an existing id keeps its place in the key order and a new id is listed last |
| KeyedStore.Delete | src/services/order.service.ts:161-163 | `Map.delete` reports whether the id was present; afterwards the id is absent, other ids hold what they held, and the remaining keys keep their relative order |
| KeyedStore.PutListing | src/services/order.service.ts:53-55 | the listing after a set is the old listing with the new record appended (new id) or replaced in place (existing id) |
| KeyedStore.DeleteTwice | src/services/order.service.ts:161-163 | a second delete of the same id reports false and changes nothing |
| ProductDto.ValidateCreate | src/dto/product.dto.ts:4-25 | an accepted create body has exactly the five fields, with its price as a number of at least 0 |
| ProductDto.CreateRoundTrip | src/dto/product.dto.ts:4-25 | every create request with a non-negative price is accepted as itself, and an accepted body is exactly the request written out |
| ProductDto.ValidateUpdate | src/dto/product.dto.ts:27-53 | an accepted patch body has only the five known fields; a field is supplied exactly when the body has it and it is not null, and a supplied field is the body's value for it; a negative price is refused |
| ProductDto.UpdateRoundTrip | src/dto/product.dto.ts:27-53 | every field is optional: any patch request, written with only its supplied fields (even none), is accepted as itself |
| UserDto.ValidateCreate | src/dto/user.dto.ts:4-17 | an accepted create body has exactly name, email and age; the email passes the email check and the age is at least 0 |
| UserDto.CreateRoundTrip | src/dto/user.dto.ts:4-17 | a create request is accepted as itself exactly when its email passes the email check, and an accepted body is the request written out |
| UserDto.ValidateUpdate | src/dto/user.dto.ts:19-35 | an accepted patch body has only known fields; a field is supplied exactly when the body has it and it is not null, and a supplied field is the body's value for it; a supplied email passes the email check; a negative age is refused |
| UserDto.UpdateRoundTrip | src/dto/user.dto.ts:19-35 | every field is optional: any patch request with a valid email (if any) is accepted as itself |
| OrderDto.ParseStatus | src/dto/order.dto.ts:39-40 | a status string is accepted exactly when it is one of pending, processing, shipped, delivered or cancelled, and it parses to the value with that name |
| OrderDto.ValidateOrderItem | src/dto/order.dto.ts:5-14 | an accepted line has quantity at least 1, and its body has exactly productId and quantity |
| OrderDto.ItemRoundTrip | src/dto/order.dto.ts:5-14 | a line is accepted as itself exactly when its quantity is at least 1, and an accepted line body is exactly its two fields |
| OrderDto.ClientPriceRejected | src/main.ts:13-17 | when the line rules are applied with non-whitelisted properties forbidden, a line carrying a price is refused (the finding below shows the declared check never applies them) |
| OrderDto.CheckAll | src/dto/order.dto.ts:26-28 | an array passes exactly when every element passes, and the result is the elements' results in order |
| OrderDto.ValidateCreateOrderAsWritten | src/dto/order.dto.ts:16-29 | the order body check as declared: a body passes exactly when it has only a string userId and a products array whose elements are objects with a string productId and a numeric quantity; no range or whitelist rule applies to the elements, and the request holds one line per element, each the element as it reaches the service |
| OrderDto.LooseItem | src/dto/order.dto.ts:26-28 | the element that reaches the service when no rule checks it: it passes exactly when it is an object with a string productId and a numeric quantity, whatever the quantity's value and whatever other properties it has, and the line carries the body's productId and quantity |
| OrderDto.ItemRulesRefineLoose | src/dto/order.dto.ts:5-14 | the line rules only refuse elements: an element they accept reaches the service unchanged without them |
| OrderDto.CorrectedRefinesAsWritten | src/dto/order.dto.ts:16-29 | every body the check with line rules accepts is also accepted by the declared check, as the same request |
| Json.Str | src/dto/product.dto.ts:6 | `@IsString()`: a value passes exactly when it is a string, and comes back as that string |
| Json.Bool | src/dto/product.dto.ts:23 | `@IsBoolean()`: a value passes exactly when it is a boolean, and comes back as that boolean |
| Json.Optional | src/dto/order.dto.ts:38 | `@IsOptional()`: an absent or null field passes as not supplied; any other value passes exactly when the field's own check does, and then comes back supplied with that check's value |
| Json.NumAtLeast | src/dto/order.dto.ts:11-12 | `@IsNumber() @Min(lo)`: a value passes exactly when it is a number of at least `lo`, and comes back as that number |
| Json.NonNegative | src/dto/product.dto.ts:10-12 | `@IsNumber() @Min(0)`: a value passes exactly when it is a number of at least 0, and comes back as that number |
| Json.OnlyFields | src/main.ts:13-17 | with `whitelist` and `forbidNonWhitelisted`, a body passes only if it is an object with no property outside the declared ones |
| UserDto.Email | src/dto/user.dto.ts:9-11 | `@IsEmail()`: a value passes exactly when it is a string the email check accepts, and comes back as that string |
| OrderDto.StatusField | src/dto/order.dto.ts:39-40 | `@IsIn` over the five status names: a value passes exactly when it is one of the five name strings, and parses to the status with that name |
| OrderDto.ValidateCreateOrder | src/dto/order.dto.ts:16-29 | the order body check with the line rules applied: a body passes exactly when it has only a string userId and a products array whose every element passes the line rules; every accepted line has quantity at least 1 |
| OrderDto.CreateOrderRoundTrip | src/dto/order.dto.ts:26-28 | an order request is accepted as itself exactly when every quantity is at least 1; the products array has no minimum length |
| OrderDto.ValidateUpdateOrder | src/dto/order.dto.ts:31-41 | a patch body carries at most a status; a status is supplied exactly when the body has a non-null one; a present non-null value that is not one of the five name strings is refused, whatever its type |
| OrderDto.UpdateOrderRoundTrip | src/dto/order.dto.ts:31-41 | every patch request, the empty one included, is accepted as itself |
| OrderDto.NestedItemsUnchecked | src/dto/order.dto.ts:26-28 | a body with a quantity of -1 and a client price passes the declared check but not the check with line rules |
| ProductService.Seed | src/services/product.service.ts:10-44 | the sample catalog lists Laptop, Smartphone and Headphones in that order, each under its own id |
| ProductService.FindAll | src/services/product.service.ts:47-49 | the listing holds exactly the stored products, one entry per key |
| ProductService.FindOne | src/services/product.service.ts:59-61 | the lookup port returns the product stored under the id, and returns nothing exactly when the id is absent |
| ProductService.FindByCategory | src/services/product.service.ts:52-56 | the result holds exactly the listed products whose category equals the argument after case folding |
| ProductService.FindInStock | src/services/product.service.ts:119-121 | the result holds exactly the listed products flagged in stock |
| ProductService.Create | src/services/product.service.ts:64-77 | the new product has the fresh id, the request's five fields and created = updated = now, and is stored under the fresh id with every other product untouched |
| ProductService.Update | src/services/product.service.ts:80-94 | an absent id gives nothing and leaves the catalog as it was; otherwise all five fields come from the request, id and creation time stay, updated = now, and only that id changes |
| ProductService.Patch | src/services/product.service.ts:97-111 | an absent id gives nothing and leaves the catalog as it was; otherwise each supplied field replaces the stored one, the others keep their values, id and creation time stay, and updated = now |
| ProductService.Remove | src/services/product.service.ts:114-116 | reports whether the id was present, and afterwards the lookup finds nothing under it |
| ProductService.CreateAppends | src/services/product.service.ts:64-77 | a product under a new id goes last in the listing, and last in the stock and category listings when it matches them |
| ProductService.SeedByCategory | src/services/product.service.ts:52-56 | on the sample catalog, "electronics" finds Laptop and Smartphone despite the capital E |
| ProductService.SeedInStock | src/services/product.service.ts:119-121 | on the sample catalog only the headphones are left out of the in-stock listing |
| UserService.Seed | src/services/user.service.ts:10-30 | the sample users are listed as John Doe then Jane Smith, each under its own id |
| UserService.FindAll | src/services/user.service.ts:33-35 | the listing holds exactly the stored users, one entry per key |
| UserService.FindOne | src/services/user.service.ts:38-40 | returns the user stored under the id, and returns nothing exactly when the id is absent |
| UserService.Create | src/services/user.service.ts:43-56 | the new user has the fresh id, the request's fields and created = updated = now, and is stored under the fresh id with every other user untouched |
| UserService.Update | src/services/user.service.ts:59-73 | an absent id gives nothing and leaves the store as it was; otherwise name, email and age come from the request, id and creation time stay, and updated = now |
| UserService.Patch | src/services/user.service.ts:76-90 | an absent id gives nothing and leaves the store as it was; otherwise only the supplied fields change, id and creation time stay, and updated = now |
| UserService.Remove | src/services/user.service.ts:93-95 | reports whether the id was present; afterwards it is absent and every other user is as it was |
| UserService.ListingOrder | src/services/user.service.ts:43-73 | a user created under a new id is listed last, and an update keeps the key order |
| OrderService.TotalAppend | src/services/order.service.ts:88 | adding a price × quantity for each line in turn builds the sum over all the lines |
| OrderService.TotalNonNegative | src/services/order.service.ts:88 | with quantities of at least 1 the total is never negative |
| OrderService.Compose | src/services/order.service.ts:73-89 | composition succeeds exactly when every requested product is in the catalog; lines copy product id and quantity in request order with the catalog price; the running total equals the sum over the lines |
| OrderService.Create | src/services/order.service.ts:68-103 | succeeds exactly when every product resolves; a failure leaves the store as it was; a success stores one pending order under the fresh id with the request's user id, catalog-priced lines, the summed total and created = updated = now |
| OrderService.Update | src/services/order.service.ts:106-141 | succeeds exactly when the id exists and every product resolves, and otherwise leaves the store as it was; a success replaces user id, lines and total, keeps id, creation time and status, sets updated = now, and keeps the key's place |
| OrderService.Patch | src/services/order.service.ts:144-158 | succeeds exactly when the id exists, and otherwise leaves the store as it was; a success changes the status only when one is supplied, sets updated = now, and leaves lines, total, user id, id and creation time as they were |
| OrderService.Remove | src/services/order.service.ts:161-163 | reports whether the id was present; afterwards it is absent and every other order is as it was |
| OrderService.FindOne | src/services/order.service.ts:63-65 | returns the order stored under the id, and returns nothing exactly when the id is absent |
| OrderService.FindAll | src/services/order.service.ts:53-55 | the listing holds exactly the stored orders, one entry per key |
| OrderService.FindByUserId | src/services/order.service.ts:58-60 | the result holds exactly the listed orders with that user id |
| OrderService.FindByStatus | src/services/order.service.ts:166-170 | the result holds exactly the listed orders whose status equals the argument |
| OrderService.Seed | src/services/order.service.ts:11-49 | the sample orders are listed as "1" then "2" |
| OrderService.SeedInv | src/services/order.service.ts:11-47 | the sample orders satisfy the invariant: 999.99, and 599.99 + 2 × 199.99 = 999.97 |
| OrderService.CreateKeepsInv | src/services/order.service.ts:91-101 | create with positive quantities keeps the invariant, even when the fresh id is already in use |
| OrderService.UpdateKeepsInv | src/services/order.service.ts:131-139 | full update with positive quantities keeps the invariant |
| OrderService.PatchKeepsInv | src/services/order.service.ts:150-156 | patch keeps the invariant, because lines and total are untouched and the status is one of the five |
| OrderService.RemoveKeepsInv | src/services/order.service.ts:161-163 | remove keeps the invariant |
| OrderService.InvTotalsNonNegative | src/services/order.service.ts:73-89 | in a store satisfying the invariant every total is non-negative |
| OrderService.CreateKeepsStatuses | src/services/order.service.ts:68-103 | create keeps every stored status one of the five names, for any request, since the new order is pending |
| OrderService.UpdateKeepsStatuses | src/services/order.service.ts:106-141 | a full update keeps every stored status one of the five names, for any request, since it keeps the order's status |
| OrderService.PatchKeepsStatuses | src/services/order.service.ts:144-158 | a patch with a checked status keeps every stored status one of the five names |
| OrderService.RemoveKeepsStatuses | src/services/order.service.ts:161-163 | remove keeps every stored status one of the five names |
| OrderService.InvStatusesKnown | src/services/order.service.ts:11-49 | the invariant implies that every stored status is one of the five names |
| OrderService.UnknownStatusFindsNothing | src/services/order.service.ts:166-170 | in any valid store whose statuses are all among the five names, which includes stores with negative quantities, a status outside the five finds nothing |
| OrderService.RemoveTwice | src/services/order.service.ts:161-163 | removing the same id a second time reports false and changes nothing |
| OrderService.CreateAppends | src/services/order.service.ts:53-60 | an order created under a new id goes last in the listing, and last in the user and status listings it matches |
| OrderService.ChangeKeepsPosition | src/services/order.service.ts:131-157 | after a successful update or patch the listing changes only at the updated order's position |
| OrderSystem.SampleLaptop | src/services/product.service.ts:12-20 | the sample catalog holds the laptop under "1" at 999.99 |
| OrderSystem.OrderOneLaptop | src/services/order.service.ts:68-103 | ordering one laptop from the sample catalog gives a pending order with total 999.99 and one line priced 999.99 |
| OrderSystem.RepricedComposition | src/services/product.service.ts:97-111 | after the laptop is repriced to 500.00, composing the same request gives a total of 500.00 |
| OrderSystem.LineIsPriceSnapshot | src/services/order.service.ts:82-86 | an order stored before the repricing keeps its 999.99 line and total, so stored prices are snapshots |
| OrderSystem.MissingProductAborts | src/services/order.service.ts:77-80 | ordering a product the catalog lacks returns nothing and leaves the sample order store unchanged |
| OrderSystem.ShipSampleOrder | src/services/order.service.ts:144-157 | patching sample order "2" to shipped sets its status and update time and keeps its lines and total |
| OrderSystem.ValidatedCreateKeepsInv | src/dto/order.dto.ts:5-28 | an order from a request that passed the line rules keeps the invariant, so every stored total stays non-negative |
| OrderSystem.NegativeQuantityStored | src/dto/order.dto.ts:26-28 | with the declared check, quantity -1 reaches the engine, and the stored order has total -999.99 and breaks the invariant, while every status in that store is still one of the five names |

## Findings

| source | as written | input that shows it | evidently intended | confidence | as-written member | corrected member |
|---|---|---|---|---|---|---|
| src/dto/order.dto.ts:26-28 | `products` is declared with `@IsArray()` and `@Type`, but without `@ValidateNested()`. The validation library checks a nested object only under that decorator, so the `OrderItemDto` rules never run. Those rules are quantity ≥ 1 and no extra properties. | `{"userId":"1","products":[{"productId":"1","quantity":-1,"price":0}]}` is accepted. The engine then stores an order whose total is -999.99. | every line is checked against the `OrderItemDto` rules, so stored quantities are ≥ 1 and totals are non-negative | medium; not executed. It rests on the validation library's rule for nested objects. | OrderDto.ValidateCreateOrderAsWritten, OrderSystem.NegativeQuantityStored | OrderDto.ValidateCreateOrder, OrderSystem.ValidatedCreateKeepsInv |

The engine itself never checks quantities. The model follows the code here:
`OrderService.Create` and `OrderService.Update` accept any integer quantity.
The invariant lemmas assume positive quantities, and the corrected request
check guarantees them.

## Left out

- Controllers and their mapping of `null` results to 404 and 400 responses are not modelled. Neither are the Swagger metadata, the bootstrap in `src/main.ts`, the module wiring or the health endpoint. They are routing and plumbing, not store logic.
- Clocks and id generation are parameters (`freshId`, `now`). Nothing makes a fresh id unused. The model keeps the code's behaviour: a colliding id overwrites the stored record in place. The model does not claim that update times increase, because the code does not ensure it.
- Floating-point prices and totals are not modelled. Prices are whole cents, and totals are exact sums with no JavaScript rounding.
- Json: JSON numbers are integers. A fractional quantity or age, which `@IsNumber()` accepts, is not modelled.
- ProductService.FindByCategory: `toLowerCase` is the parameter `lower` and is not defined here. `AsciiLower` stands in for it only in the sample-catalog lemma.
- UserDto.Email: the `@IsEmail()` rules belong to the validation library. The model takes them as the parameter `isEmail`.
- ProductDto.ValidateUpdate: an explicit `null` field is treated as not supplied. `@IsOptional()` lets `null` through, and the spread in `patch` (src/services/product.service.ts:103-107) would then store `null`. The product stays findable. With `{"price": null}`, a later order `create` or `update` stores a line whose price is `null` (src/services/order.service.ts:85) and adds `null` × quantity, which is 0, to the total (src/services/order.service.ts:88). With `{"category": null}`, every later `findByCategory` throws a `TypeError` when it calls `toLowerCase` on that product's category (src/services/product.service.ts:54). A `null` name, description or `inStock` is stored and returned as it is. The model represents none of these.
- UserDto.ValidateUpdate: an explicit `null` field is treated as not supplied. `@IsOptional()` lets `null` through, and the spread in `patch` (src/services/user.service.ts:82-86) would then store `null` as the user's name, email or age. No other operation reads those fields, so the effect stays within that user's record. The model does not represent it.
- OrderDto.ValidateUpdateOrder: an explicit `null` status is treated as not supplied. `@IsOptional()` skips the `@IsIn` check for `null`, and the spread in `patch` (src/services/order.service.ts:150-154) would then store `null` as the status. That status is none of the five names, so such a patch breaks the status part of `OrderService.Inv`, and `findByStatus` never finds that order again.
- Json.Optional: an explicit `null` passes as "not supplied". After `@IsOptional()` the source keeps the `null` in the request object, and the `patch` spreads then store it. The effects are described under each update validator below.
- OrderDto.LooseItem: it refuses an element that is not an object with a string `productId` and a numeric `quantity`. In the source every array element reaches the service's loop (src/services/order.service.ts:76-88), whatever its shape. The consequences are described under `OrderDto.ValidateCreateOrderAsWritten`.
- OrderDto.ValidateCreateOrderAsWritten: it rejects elements that are not objects with a string `productId` and a numeric `quantity`. The source lets such elements through to the service. No implicit conversion is configured, so a quantity of `"2"`, `null` or `true` stays as it is. The service then stores that quantity in the line, and the total is whatever JavaScript's coercion of price × quantity gives: 1999.98, 0 or 999.99 for the laptop. The model does not represent such quantities or totals.
- The error messages of the validation pipe and its `transform` step are not modelled. Neither are request bodies that are not objects.
- Concurrency is not modelled, because every operation runs to completion on one thread.
- The code does not reject a zero or negative quantity in the order engine, and it does not check that the user exists. The model follows the code on both points.

=== FILE: json.dfy ===
/** A request body as the validation pipe receives it, and the per-field
    checks its decorators perform. Numbers are integers (prices in cents). */
module Json {
  import opened Wrappers

  datatype Json =
    | JNull
    | JBool(b: bool)
    | JNum(n: int)
    | JStr(s: string)
    | JArr(elems: seq<Json>)
    | JObj(fields: map<string, Json>)

  /** The value of field `k`; an absent field reads as null, as it does to
      the validators. */
  function Field(f: map<string, Json>, k: string): Json {
    if k in f then f[k] else JNull
  }

  /** Only whitelisted properties: with `forbidNonWhitelisted` any other
      property fails validation. */
  predicate OnlyFields(j: Json, allowed: set<string>) {
    j.JObj? && j.fields.Keys <= allowed
  }

  /** `@IsString()` */
  function Str(j: Json): (r: Option<string>)
    ensures r.Some? <==> j.JStr?
    ensures r.Some? ==> r.value == j.s
  {
    if j.JStr? then Some(j.s) else None
  }

  /** `@IsBoolean()` */
  function Bool(j: Json): (r: Option<bool>)
    ensures r.Some? <==> j.JBool?
    ensures r.Some? ==> r.value == j.b
  {
    if j.JBool? then Some(j.b) else None
  }

  /** `@IsNumber()` together with `@Min(lo)`. */
  function NumAtLeast(j: Json, lo: int): (r: Option<int>)
    ensures r.Some? <==> j.JNum? && j.n >= lo
    ensures r.Some? ==> r.value == j.n && r.value >= lo
  {
    if j.JNum? && j.n >= lo then Some(j.n) else None
  }

  /** `@IsNumber()` with `@Min(0)`, as a natural number. */
  function NonNegative(j: Json): (r: Option<nat>)
    ensures r.Some? <==> j.JNum? && j.n >= 0
    ensures r.Some? ==> r.value == j.n
  {
    if j.JNum? && j.n >= 0 then Some(j.n) else None
  }

  /** `@IsOptional()` in front of another check: null or absent passes as
      "not supplied" (`Some(None)`), anything else must pass `check`. */
  function Optional<T>(j: Json, check: Json -> Option<T>): (r: Option<Option<T>>)
    ensures j.JNull? ==> r == Some(None)
    ensures !j.JNull? ==> (r.Some? <==> check(j).Some?)
    ensures r.Some? && r.value.Some? ==> check(j) == Some(r.value.value)
    ensures !j.JNull? && check(j).Some? ==> r == Some(Some(check(j).value))
  {
    if j.JNull? then Some(None)
    else match check(j)
      case Some(v) => Some(Some(v))
      case None => None
  }

  /** The body field of an optional value: omitted when not supplied. */
  function OptField<T>(f: map<string, Json>, k: string, v: Option<T>, enc: T -> Json): map<string, Json> {
    match v
    case Some(x) => f[k := enc(x)]
    case None => f
  }
}

=== FILE: order_dto.dfy ===
/** Order request bodies, their validation, and the stored order record. */
module OrderDto {
  import opened Wrappers
  import opened Json

  /** The five values a patch may set an order's status to. */
  datatype OrderStatus = Pending | Processing | Shipped | Delivered | Cancelled

  function Name(st: OrderStatus): string {
    match st
    case Pending => "pending"
    case Processing => "processing"
    case Shipped => "shipped"
    case Delivered => "delivered"
    case Cancelled => "cancelled"
  }

  const StatusNames: set<string> := {"pending", "processing", "shipped", "delivered", "cancelled"}

  /** `@IsIn([...])` on a status string. */
  function ParseStatus(s: string): (r: Option<OrderStatus>)
    ensures r.Some? ==> Name(r.value) == s
    ensures r.Some? <==> s in StatusNames
  {
    if s == "pending" then Some(Pending)
    else if s == "processing" then Some(Processing)
    else if s == "shipped" then Some(Shipped)
    else if s == "delivered" then Some(Delivered)
    else if s == "cancelled" then Some(Cancelled)
    else None
  }

  lemma ParseName(st: OrderStatus)
    ensures ParseStatus(Name(st)) == Some(st)
  {
  }

  /** `OrderItemDto`: a requested line carries no price. */
  datatype OrderItem = OrderItem(productId: string, quantity: int)

  /** `CreateOrderDto`, also the body of a full update. */
  datatype CreateOrder = CreateOrder(userId: string, products: seq<OrderItem>)

  /** `UpdateOrderDto`: the patch body, an optional status only. */
  datatype UpdateOrder = UpdateOrder(status: Option<OrderStatus>)

  /** `OrderItemResponseDto`: a stored line with the price it was sold at. */
  datatype OrderLine = OrderLine(productId: string, quantity: int, price: nat)

  /** `OrderResponseDto`. The stored status is any string. */
  datatype Order = Order(
    id: string, userId: string, products: seq<OrderLine>, total: int,
    status: string, createdAt: int, updatedAt: int)

  const ItemFields: set<string> := {"productId", "quantity"}
  const CreateFields: set<string> := {"userId", "products"}
  const UpdateFields: set<string> := {"status"}

  /** The `OrderItemDto` rules: a string product id, a quantity of at least 1,
      and no other property (a client-supplied price included). */
  function ValidateOrderItem(j: Json): (r: Option<OrderItem>)
    ensures r.Some? ==> r.value.quantity >= 1
    ensures r.Some? ==> j.JObj? && j.fields.Keys == ItemFields
  {
    if !OnlyFields(j, ItemFields) then None
    else match (Str(Field(j.fields, "productId")), NumAtLeast(Field(j.fields, "quantity"), 1))
      case (Some(p), Some(q)) => Some(OrderItem(p, q))
      case _ => None
  }

  /** What reaches the service for one nested item when nothing validates
      it: the object's product id and quantity, any range, extra properties
      ignored. */
  function LooseItem(j: Json): (r: Option<OrderItem>)
    ensures r.Some? <==> j.JObj? && Field(j.fields, "productId").JStr? && Field(j.fields, "quantity").JNum?
    ensures r.Some? ==> Field(j.fields, "productId") == JStr(r.value.productId)
    ensures r.Some? ==> j.JObj? && Field(j.fields, "quantity") == JNum(r.value.quantity)
  {
    if j.JObj? && Field(j.fields, "productId").JStr? && Field(j.fields, "quantity").JNum?
    then Some(OrderItem(Field(j.fields, "productId").s, Field(j.fields, "quantity").n))
    else None
  }

  /** Applies an item check to every element, failing if any element fails. */
  function CheckAll(elems: seq<Json>, check: Json -> Option<OrderItem>): (r: Option<seq<OrderItem>>)
    ensures r.Some? <==> forall i :: 0 <= i < |elems| ==> check(elems[i]).Some?
    ensures r.Some? ==> |r.value| == |elems|
    ensures r.Some? ==> forall i :: 0 <= i < |elems| ==> r.value[i] == check(elems[i]).value
    decreases |elems|
  {
    if |elems| == 0 then Some([])
    else match (check(elems[0]), CheckAll(elems[1..], check))
      case (Some(x), Some(xs)) => Some([x] + xs)
      case _ => None
  }

  /** The top level of an order body: only `userId` and `products`, a string
      and an array. */
  predicate OrderShape(j: Json) {
    && OnlyFields(j, CreateFields)
    && Field(j.fields, "userId").JStr?
    && Field(j.fields, "products").JArr?
  }

  /** The `CreateOrderDto` body check as declared: `products` is `@IsArray()`
      with `@Type`, but has no `@ValidateNested()`, so the pipe never applies
      the `OrderItemDto` rules to the elements. */
  function ValidateCreateOrderAsWritten(j: Json): (r: Option<CreateOrder>)
    ensures r.Some? <==>
              && OrderShape(j)
              && forall i :: 0 <= i < |j.fields["products"].elems| ==> LooseItem(j.fields["products"].elems[i]).Some?
    ensures r.Some? ==> j.fields.Keys == CreateFields
    ensures r.Some? ==> |r.value.products| == |j.fields["products"].elems|
    ensures r.Some? ==> forall i :: 0 <= i < |r.value.products| ==>
              r.value.products[i] == LooseItem(j.fields["products"].elems[i]).value
  {
    if !OnlyFields(j, CreateFields) then None
    else
      var f := j.fields;
      match (Str(Field(f, "userId")), Field(f, "products"))
      case (Some(u), JArr(elems)) =>
        (match CheckAll(elems, LooseItem)
         case Some(items) => Some(CreateOrder(u, items))
         case None => None)
      case _ => None
  }

  /** The `CreateOrderDto` body check with the item rules applied to every
      element (the effect `@ValidateNested()` would have). Any length of
      `products` is accepted, the empty list included. */
  function ValidateCreateOrder(j: Json): (r: Option<CreateOrder>)
    ensures r.Some? <==>
              && OrderShape(j)
              && forall i :: 0 <= i < |j.fields["products"].elems| ==> ValidateOrderItem(j.fields["products"].elems[i]).Some?
    ensures r.Some? ==> j.fields.Keys == CreateFields
    ensures r.Some? ==> forall i :: 0 <= i < |r.value.products| ==> r.value.products[i].quantity >= 1
    ensures r.Some? ==> |r.value.products| == |j.fields["products"].elems|
    ensures r.Some? ==> forall i :: 0 <= i < |r.value.products| ==>
              r.value.products[i] == ValidateOrderItem(j.fields["products"].elems[i]).value
  {
    if !OnlyFields(j, CreateFields) then None
    else
      var f := j.fields;
      match (Str(Field(f, "userId")), Field(f, "products"))
      case (Some(u), JArr(elems)) =>
        (match CheckAll(elems, ValidateOrderItem)
         case Some(items) => Some(CreateOrder(u, items))
         case None => None)
      case _ => None
  }

  /** `@IsIn([...])` on the status value. */
  function StatusField(j: Json): (r: Option<OrderStatus>)
    ensures r.Some? <==> j.JStr? && j.s in StatusNames
    ensures r.Some? ==> j == JStr(Name(r.value))
  {
    if j.JStr? then ParseStatus(j.s) else None
  }

  /** The `UpdateOrderDto` body check: at most a status, one of the five. */
  function ValidateUpdateOrder(j: Json): (r: Option<UpdateOrder>)
    ensures r.Some? ==> j.JObj? && j.fields.Keys <= UpdateFields
    ensures r.Some? && r.value.status.Some? ==> Field(j.fields, "status") == JStr(Name(r.value.status.value))
    ensures r.Some? ==> (r.value.status.Some? <==> !Field(j.fields, "status").JNull?)
    ensures (&& j.JObj? && !Field(j.fields, "status").JNull?
             && !(Field(j.fields, "status").JStr? && Field(j.fields, "status").s in StatusNames)) ==> r.None?
  {
    if !OnlyFields(j, UpdateFields) then None
    else match Optional(Field(j.fields, "status"), StatusField)
      case Some(st) => Some(UpdateOrder(st))
      case None => None
  }

  function ItemToJson(item: OrderItem): Json {
    JObj(map["productId" := JStr(item.productId), "quantity" := JNum(item.quantity)])
  }

  function ItemsToJson(items: seq<OrderItem>): (r: seq<Json>)
    ensures |r| == |items|
    ensures forall i :: 0 <= i < |items| ==> r[i] == ItemToJson(items[i])
  {
    seq(|items|, i requires 0 <= i < |items| => ItemToJson(items[i]))
  }

  function CreateOrderToJson(c: CreateOrder): Json {
    JObj(map["userId" := JStr(c.userId), "products" := JArr(ItemsToJson(c.products))])
  }

  function UpdateOrderToJson(u: UpdateOrder): Json {
    JObj(OptField(map[], "status", u.status, st => JStr(Name(st))))
  }

  /** A line item is accepted as itself exactly when its quantity is at
      least 1, and an accepted item body is exactly its two fields. */
  lemma ItemRoundTrip(item: OrderItem, j: Json)
    ensures ValidateOrderItem(ItemToJson(item)) == (if item.quantity >= 1 then Some(item) else None)
    ensures ValidateOrderItem(j) == Some(item) ==> j == ItemToJson(item)
  {
    if ValidateOrderItem(j) == Some(item) {
      assert j.fields == ItemToJson(item).fields;
    }
  }

  /** A body carrying a price on any line is refused by the item rules. */
  lemma ClientPriceRejected(j: Json)
    requires j.JObj? && "price" in j.fields
    ensures ValidateOrderItem(j) == None
  {
  }

  /** Whatever the item rules accept reaches the service unchanged when no
      rule runs: the rules only remove elements, they never alter one. */
  lemma ItemRulesRefineLoose(j: Json)
    ensures ValidateOrderItem(j).Some? ==> LooseItem(j) == ValidateOrderItem(j)
  {
  }

  /** The corrected check accepts a subset of the bodies the declared check
      accepts, and yields the same request for each of them. */
  lemma CorrectedRefinesAsWritten(j: Json)
    ensures ValidateCreateOrder(j).Some? ==> ValidateCreateOrderAsWritten(j) == ValidateCreateOrder(j)
  {
    if ValidateCreateOrder(j).Some? {
      var elems := j.fields["products"].elems;
      forall i | 0 <= i < |elems|
        ensures LooseItem(elems[i]) == ValidateOrderItem(elems[i])
      {
        ItemRulesRefineLoose(elems[i]);
      }
      var strict := CheckAll(elems, ValidateOrderItem).value;
      var loose := CheckAll(elems, LooseItem).value;
      assert strict == loose;
    }
  }

  /** An order request is accepted as itself exactly when every line has a
      quantity of at least 1; in particular an empty product list is fine. */
  lemma CreateOrderRoundTrip(c: CreateOrder)
    ensures ValidateCreateOrder(CreateOrderToJson(c)).Some?
        <==> forall i :: 0 <= i < |c.products| ==> c.products[i].quantity >= 1
    ensures ValidateCreateOrder(CreateOrderToJson(c)).Some? ==> ValidateCreateOrder(CreateOrderToJson(c)).value == c
  {
    var elems := ItemsToJson(c.products);
    forall i | 0 <= i < |c.products|
      ensures ValidateOrderItem(elems[i]) == (if c.products[i].quantity >= 1 then Some(c.products[i]) else None)
    {
      ItemRoundTrip(c.products[i], elems[i]);
    }
    var r := CheckAll(elems, ValidateOrderItem);
    if r.Some? {
      assert r.value == c.products;
    }
  }

  /** Every patch request is accepted as itself; the empty body is the patch
      that sets nothing. */
  lemma UpdateOrderRoundTrip(u: UpdateOrder)
    ensures ValidateUpdateOrder(UpdateOrderToJson(u)) == Some(u)
  {
    if u.status.Some? {
      ParseName(u.status.value);
    }
  }

  /** The body of a line with quantity -1 and a client price of 0. */
  function NegativeLineBody(): Json {
    JObj(map["userId" := JStr("1"),
             "products" := JArr([JObj(map["productId" := JStr("1"), "quantity" := JNum(-1), "price" := JNum(0)])])])
  }

  /** As declared, the pipe lets a line with a negative quantity and a
      client-supplied price through to the service; with the item rules
      applied it is refused. */
  lemma NestedItemsUnchecked()
    ensures ValidateCreateOrderAsWritten(NegativeLineBody()) == Some(CreateOrder("1", [OrderItem("1", -1)]))
    ensures ValidateCreateOrder(NegativeLineBody()) == None
  {
    var item := JObj(map["productId" := JStr("1"), "quantity" := JNum(-1), "price" := JNum(0)]);
    assert NegativeLineBody().fields["products"] == JArr([item]);
    var f := NegativeLineBody().fields;
    assert f.Keys == CreateFields;
    assert Str(Field(f, "userId")) == Some("1");
    assert LooseItem(item) == Some(OrderItem("1", -1));
    var checked := CheckAll([item], LooseItem);
    assert [item][0] == item;
    assert checked.Some?;
    assert checked.value == [OrderItem("1", -1)];
    assert Field(f, "products") == JArr([item]);
    assert ValidateOrderItem(item) == None;
  }
}

=== FILE: order_service.dfy ===
/** The order composition engine: create and full update resolve every
    requested product through the catalog lookup and snapshot its current
    price; patch sets only the status; queries list and filter the store. */
module OrderService {
  import opened Wrappers
  import opened Seqs
  import opened KeyedStore
  import opened ProductDto
  import opened OrderDto
  import ProductService
  import opened SampleTime

  type Orders = Store<Order>
  type Catalog = ProductService.Catalog

  /** The reference order total: the sum of price × quantity over the lines. */
  function Total(lines: seq<OrderLine>): int
    decreases |lines|
  {
    if |lines| == 0 then 0 else lines[0].price * lines[0].quantity + Total(lines[1..])
  }

  /** Adding a line at the end adds its price × quantity to the total. */
  lemma {:induction false} TotalAppend(lines: seq<OrderLine>, line: OrderLine)
    ensures Total(lines + [line]) == Total(lines) + line.price * line.quantity
    decreases |lines|
  {
    if |lines| == 0 {
      assert lines + [line] == [line];
      assert [line][1..] == [];
    } else {
      assert (lines + [line])[1..] == lines[1..] + [line];
      TotalAppend(lines[1..], line);
    }
  }

  /** With positive quantities and non-negative prices a total is never negative. */
  lemma {:induction false} TotalNonNegative(lines: seq<OrderLine>)
    requires forall i :: 0 <= i < |lines| ==> lines[i].quantity >= 1
    ensures Total(lines) >= 0
    decreases |lines|
  {
    if |lines| > 0 {
      TotalNonNegative(lines[1..]);
    }
  }

  /** Every requested product is in the catalog. */
  predicate AllInCatalog(c: Catalog, items: seq<OrderItem>) {
    forall i :: 0 <= i < |items| ==> items[i].productId in c.data
  }

  /** `lines` are `items` in request order, each with the product id and
      quantity requested and the price the catalog holds for that product. */
  ghost predicate PricedFrom(c: Catalog, items: seq<OrderItem>, lines: seq<OrderLine>) {
    && |lines| == |items|
    && forall i :: 0 <= i < |items| ==>
         && items[i].productId in c.data
         && lines[i] == OrderLine(items[i].productId, items[i].quantity, c.data[items[i].productId].price)
  }

  /** The lines and running total the loop over the requested items builds. */
  datatype Priced = Priced(lines: seq<OrderLine>, total: int)

  /** The loop shared by `create` and `update`: look up each requested product,
      append a line with its current price and add price × quantity to the
      total; give up as soon as a product is missing. Only existence is
      checked, so a product that is out of stock is accepted. */
  function Compose(c: Catalog, items: seq<OrderItem>): (r: Option<Priced>)
    ensures r.Some? <==> AllInCatalog(c, items)
    ensures r.Some? ==> PricedFrom(c, items, r.value.lines)
    ensures r.Some? ==> r.value.total == Total(r.value.lines)
    decreases |items|
  {
    if |items| == 0 then Some(Priced([], 0))
    else
      var last := items[|items| - 1];
      match Compose(c, items[..|items| - 1])
      case None => None
      case Some(acc) =>
        match ProductService.FindOne(c, last.productId)
        case None => None
        case Some(p) =>
          var line := OrderLine(last.productId, last.quantity, p.price);
          TotalAppend(acc.lines, line);
          Some(Priced(acc.lines + [line], acc.total + p.price * last.quantity))
  }

  /** `create`: on success one new pending order under the fresh id, created
      and updated now, with the requester's user id taken as given (no user
      lookup). A missing product aborts with nothing written. */
  function Create(orders: Orders, c: Catalog, req: CreateOrder, freshId: Id, now: int): (r: Step<Order, Option<Order>>)
    requires Valid(orders)
    ensures r.result.Some? <==> AllInCatalog(c, req.products)
    ensures r.result.None? ==> r.store == orders
    ensures r.result.Some? ==>
              var o := r.result.value;
              && o.id == freshId && o.userId == req.userId
              && PricedFrom(c, req.products, o.products) && o.total == Total(o.products)
              && o.status == "pending" && o.createdAt == now && o.updatedAt == now
              && IsPut(orders, r.store, freshId, o)
  {
    match Compose(c, req.products)
    case None => Step(orders, None)
    case Some(priced) =>
      var o := Order(freshId, req.userId, priced.lines, priced.total, "pending", now, now);
      Step(Put(orders, freshId, o), Some(o))
  }

  /** `update` (full): an unknown id or a missing product changes nothing;
      otherwise user id, lines and total are replaced from the request and
      the catalog, updated is now, and id, creation time and status stay. */
  function Update(orders: Orders, c: Catalog, id: Id, req: CreateOrder, now: int): (r: Step<Order, Option<Order>>)
    requires Valid(orders)
    ensures r.result.Some? <==> id in orders.data && AllInCatalog(c, req.products)
    ensures r.result.None? ==> r.store == orders
    ensures r.result.Some? ==>
              var prev := orders.data[id];
              var o := r.result.value;
              && o.id == prev.id && o.createdAt == prev.createdAt && o.status == prev.status
              && o.userId == req.userId
              && PricedFrom(c, req.products, o.products) && o.total == Total(o.products)
              && o.updatedAt == now
              && IsPut(orders, r.store, id, o)
  {
    match Get(orders, id)
    case None => Step(orders, None)
    case Some(prev) =>
      match Compose(c, req.products)
      case None => Step(orders, None)
      case Some(priced) =>
        var o := prev.(userId := req.userId, products := priced.lines, total := priced.total, updatedAt := now);
        Step(Put(orders, id, o), Some(o))
  }

  /** `patch`: an unknown id changes nothing; otherwise the status changes
      when one is supplied, updated is now, and lines, total, user id, id
      and creation time are untouched. */
  function Patch(orders: Orders, id: Id, req: UpdateOrder, now: int): (r: Step<Order, Option<Order>>)
    requires Valid(orders)
    ensures r.result.Some? <==> id in orders.data
    ensures r.result.None? ==> r.store == orders
    ensures r.result.Some? ==>
              var prev := orders.data[id];
              var o := r.result.value;
              && o.products == prev.products && o.total == prev.total && o.userId == prev.userId
              && o.id == prev.id && o.createdAt == prev.createdAt
              && o.status == (if req.status.Some? then Name(req.status.value) else prev.status)
              && o.updatedAt == now
              && IsPut(orders, r.store, id, o)
  {
    match Get(orders, id)
    case None => Step(orders, None)
    case Some(prev) =>
      var status := match req.status case Some(st) => Name(st) case None => prev.status;
      var o := prev.(status := status, updatedAt := now);
      Step(Put(orders, id, o), Some(o))
  }

  /** `remove`: reports whether the id was present; afterwards it is absent
      and every other order is as it was. */
  function Remove(orders: Orders, id: Id): (r: Step<Order, bool>)
    requires Valid(orders)
    ensures r.result <==> id in orders.data
    ensures FindOne(r.store, id) == None
    ensures forall k :: k != id ==> FindOne(r.store, k) == FindOne(orders, k)
    ensures IsDelete(orders, r.store, id)
  {
    Delete(orders, id)
  }

  /** `findOne`: the order stored under `id`, or nothing. */
  function FindOne(orders: Orders, id: Id): (r: Option<Order>)
    ensures r.Some? <==> id in orders.data
    ensures r.Some? ==> r.value == orders.data[id]
  {
    Get(orders, id)
  }

  /** `findAll`: every order in order of first insertion. */
  function FindAll(orders: Orders): (r: seq<Order>)
    requires Valid(orders)
    ensures |r| == |orders.keys|
    ensures forall o :: o in r <==> o in orders.data.Values
  {
    var listing := Values(orders);
    assert forall o :: o in orders.data.Values ==> exists k :: k in orders.data && orders.data[k] == o;
    listing
  }

  function OfUser(userId: string): Order -> bool {
    (o: Order) => o.userId == userId
  }

  function WithStatus(status: string): Order -> bool {
    (o: Order) => o.status == status
  }

  /** `findByUserId`: the listed orders of that user, in listing order. */
  function FindByUserId(orders: Orders, userId: string): (r: seq<Order>)
    requires Valid(orders)
    ensures forall o :: o in r <==> o in FindAll(orders) && o.userId == userId
  {
    Filter(FindAll(orders), OfUser(userId))
  }

  /** `findByStatus`: the listed orders whose status is exactly `status`, in
      listing order; any string is accepted. */
  function FindByStatus(orders: Orders, status: string): (r: seq<Order>)
    requires Valid(orders)
    ensures forall o :: o in r <==> o in FindAll(orders) && o.status == status
  {
    Filter(FindAll(orders), WithStatus(status))
  }

  function OrderId(o: Order): Id {
    o.id
  }

  /** The order's status is one of the five names. Every operation keeps
      this, whatever the request's quantities. */
  predicate StatusOk(o: Order) {
    o.status in StatusNames
  }

  /** What every order reachable from the seed data through requests
      accepted by `ValidateCreateOrder` satisfies: its total is the sum over
      its lines, every line has a positive quantity, and its status is one
      of the five. */
  predicate WellFormed(o: Order) {
    && o.total == Total(o.products)
    && (forall i :: 0 <= i < |o.products| ==> o.products[i].quantity >= 1)
    && StatusOk(o)
  }

  ghost predicate Inv(orders: Orders) {
    Valid(orders) && KeyedBy(orders, OrderId) && All(orders, WellFormed)
  }

  predicate PositiveQuantities(items: seq<OrderItem>) {
    forall i :: 0 <= i < |items| ==> items[i].quantity >= 1
  }

  function Order1(): Order {
    Order("1", "1", [OrderLine("1", 1, 99999)], 99999, "delivered", Jan1, Jan1)
  }

  function Order2(): Order {
    Order("2", "2", [OrderLine("2", 1, 59999), OrderLine("3", 2, 19999)], 99997, "processing",
          Jan1 + Day, Jan1 + Day)
  }

  /** The two sample orders, inserted in order. */
  function Seed(): (s: Orders)
    ensures Valid(s)
    ensures FindAll(s) == [Order1(), Order2()]
  {
    Store(["1", "2"], map["1" := Order1(), "2" := Order2()])
  }

  /** The sample orders satisfy the invariant: their totals are the sums of
      their lines (999.99, and 599.99 + 2 × 199.99 = 999.97). */
  lemma SeedInv()
    ensures Inv(Seed())
  {
    assert Total(Order1().products) == 99999;
    assert Order2().products[1..] == [OrderLine("3", 2, 19999)];
    assert Total(Order2().products) == 99997;
    assert WellFormed(Order1()) && WellFormed(Order2());
  }

  /** Lines priced from a request with positive quantities have positive quantities. */
  lemma PricedPositive(c: Catalog, items: seq<OrderItem>, lines: seq<OrderLine>)
    requires PricedFrom(c, items, lines) && PositiveQuantities(items)
    ensures forall i :: 0 <= i < |lines| ==> lines[i].quantity >= 1
  {
  }

  /** Create keeps the invariant when the request's quantities are positive,
      whether or not the fresh id was already in use. */
  lemma CreateKeepsInv(orders: Orders, c: Catalog, req: CreateOrder, freshId: Id, now: int)
    requires Inv(orders) && PositiveQuantities(req.products)
    ensures Inv(Create(orders, c, req, freshId, now).store)
  {
    var r := Create(orders, c, req, freshId, now);
    if r.result.Some? {
      var o := r.result.value;
      PricedPositive(c, req.products, o.products);
      assert WellFormed(o);
      PutKeepsKeyedBy(orders, r.store, freshId, o, OrderId);
      PutKeepsAll(orders, r.store, freshId, o, WellFormed);
    }
  }

  /** Full update keeps the invariant when the request's quantities are positive. */
  lemma UpdateKeepsInv(orders: Orders, c: Catalog, id: Id, req: CreateOrder, now: int)
    requires Inv(orders) && PositiveQuantities(req.products)
    ensures Inv(Update(orders, c, id, req, now).store)
  {
    var r := Update(orders, c, id, req, now);
    if r.result.Some? {
      var o := r.result.value;
      PricedPositive(c, req.products, o.products);
      assert WellFormed(orders.data[id]);
      assert WellFormed(o);
      PutKeepsKeyedBy(orders, r.store, id, o, OrderId);
      PutKeepsAll(orders, r.store, id, o, WellFormed);
    }
  }

  /** Patch keeps the invariant: lines and total are untouched and the new
      status is one of the five. */
  lemma PatchKeepsInv(orders: Orders, id: Id, req: UpdateOrder, now: int)
    requires Inv(orders)
    ensures Inv(Patch(orders, id, req, now).store)
  {
    var r := Patch(orders, id, req, now);
    if r.result.Some? {
      var o := r.result.value;
      assert WellFormed(orders.data[id]);
      if req.status.Some? {
        ParseName(req.status.value);
      }
      assert WellFormed(o);
      PutKeepsKeyedBy(orders, r.store, id, o, OrderId);
      PutKeepsAll(orders, r.store, id, o, WellFormed);
    }
  }

  lemma RemoveKeepsInv(orders: Orders, id: Id)
    requires Inv(orders)
    ensures Inv(Remove(orders, id).store)
  {
    var r := Remove(orders, id);
    DeleteKeepsKeyedBy(orders, r.store, id, OrderId);
    DeleteKeepsAll(orders, r.store, id, WellFormed);
  }

  /** In every store reachable through requests accepted by
      `ValidateCreateOrder`, every order's total is non-negative. */
  lemma InvTotalsNonNegative(orders: Orders, id: Id)
    requires Inv(orders) && id in orders.data
    ensures orders.data[id].total >= 0
  {
    assert WellFormed(orders.data[id]);
    TotalNonNegative(orders.data[id].products);
  }

  /** Create keeps every status one of the five, for any request: the new
      order is pending. */
  lemma CreateKeepsStatuses(orders: Orders, c: Catalog, req: CreateOrder, freshId: Id, now: int)
    requires Valid(orders) && All(orders, StatusOk)
    ensures All(Create(orders, c, req, freshId, now).store, StatusOk)
  {
    var r := Create(orders, c, req, freshId, now);
    if r.result.Some? {
      PutKeepsAll(orders, r.store, freshId, r.result.value, StatusOk);
    }
  }

  /** Full update keeps every status one of the five, for any request: it
      keeps the order's status. */
  lemma UpdateKeepsStatuses(orders: Orders, c: Catalog, id: Id, req: CreateOrder, now: int)
    requires Valid(orders) && All(orders, StatusOk)
    ensures All(Update(orders, c, id, req, now).store, StatusOk)
  {
    var r := Update(orders, c, id, req, now);
    if r.result.Some? {
      assert StatusOk(orders.data[id]);
      PutKeepsAll(orders, r.store, id, r.result.value, StatusOk);
    }
  }

  /** Patch keeps every status one of the five: a supplied status is a
      parsed name. */
  lemma PatchKeepsStatuses(orders: Orders, id: Id, req: UpdateOrder, now: int)
    requires Valid(orders) && All(orders, StatusOk)
    ensures All(Patch(orders, id, req, now).store, StatusOk)
  {
    var r := Patch(orders, id, req, now);
    if r.result.Some? {
      assert StatusOk(orders.data[id]);
      if req.status.Some? {
        ParseName(req.status.value);
      }
      PutKeepsAll(orders, r.store, id, r.result.value, StatusOk);
    }
  }

  lemma RemoveKeepsStatuses(orders: Orders, id: Id)
    requires Valid(orders) && All(orders, StatusOk)
    ensures All(Remove(orders, id).store, StatusOk)
  {
    var r := Remove(orders, id);
    DeleteKeepsAll(orders, r.store, id, StatusOk);
  }

  /** The invariant includes the status part. */
  lemma InvStatusesKnown(orders: Orders)
    requires Inv(orders)
    ensures All(orders, StatusOk)
  {
    forall k | k in orders.data
      ensures StatusOk(orders.data[k])
    {
      assert WellFormed(orders.data[k]);
    }
  }

  /** A status outside the five matches nothing, in every store whose
      statuses are all known. That holds for every store reachable through
      the application's own request checks, negative quantities included. */
  lemma UnknownStatusFindsNothing(orders: Orders, status: string)
    requires Valid(orders) && All(orders, StatusOk) && status !in StatusNames
    ensures FindByStatus(orders, status) == []
  {
    var all := FindAll(orders);
    forall i | 0 <= i < |all|
      ensures !WithStatus(status)(all[i])
    {
      assert all[i] in orders.data.Values;
      var k :| k in orders.data && orders.data[k] == all[i];
      assert StatusOk(orders.data[k]);
    }
    FilterKeepsNone(all, WithStatus(status));
  }

  /** Removing the same id twice: the second call reports false and changes nothing. */
  lemma RemoveTwice(orders: Orders, id: Id)
    requires Valid(orders)
    ensures !Remove(Remove(orders, id).store, id).result
    ensures Remove(Remove(orders, id).store, id).store == Remove(orders, id).store
  {
    DeleteTwice(orders, id);
  }

  /** An order created under a new id joins the end of the listing and of the
      user and status listings it matches. */
  lemma CreateAppends(orders: Orders, c: Catalog, req: CreateOrder, freshId: Id, now: int,
                      userId: string, status: string)
    requires Valid(orders) && freshId !in orders.data
    requires Create(orders, c, req, freshId, now).result.Some?
    ensures var r := Create(orders, c, req, freshId, now);
            var o := r.result.value;
            && FindAll(r.store) == FindAll(orders) + [o]
            && FindByUserId(r.store, userId) == FindByUserId(orders, userId) + (if o.userId == userId then [o] else [])
            && FindByStatus(r.store, status) == FindByStatus(orders, status) + (if o.status == status then [o] else [])
  {
    var r := Create(orders, c, req, freshId, now);
    var o := r.result.value;
    PutListing(orders, r.store, freshId, o);
    var all := FindAll(orders);
    assert FindAll(r.store) == all + [o];
    FilterAppend(all, [o], OfUser(userId));
    assert Filter([o], OfUser(userId)) == (if o.userId == userId then [o] else []) by {
      assert [o][1..] == [];
    }
    FilterAppend(all, [o], WithStatus(status));
    assert Filter([o], WithStatus(status)) == (if o.status == status then [o] else []) by {
      assert [o][1..] == [];
    }
  }

  /** Update and patch keep the order's place in the listing: the listing
      changes only at that position. */
  lemma ChangeKeepsPosition(orders: Orders, c: Catalog, id: Id, req: CreateOrder, patch: UpdateOrder, now: int)
    requires Valid(orders)
    ensures var r := Update(orders, c, id, req, now);
            r.result.Some? ==>
              && |FindAll(r.store)| == |FindAll(orders)|
              && forall i :: 0 <= i < |orders.keys| ==>
                   FindAll(r.store)[i] == (if orders.keys[i] == id then r.result.value else FindAll(orders)[i])
    ensures var r := Patch(orders, id, patch, now);
            r.result.Some? ==>
              && |FindAll(r.store)| == |FindAll(orders)|
              && forall i :: 0 <= i < |orders.keys| ==>
                   FindAll(r.store)[i] == (if orders.keys[i] == id then r.result.value else FindAll(orders)[i])
  {
    var u := Update(orders, c, id, req, now);
    if u.result.Some? {
      PutListing(orders, u.store, id, u.result.value);
    }
    var p := Patch(orders, id, patch, now);
    if p.result.Some? {
      PutListing(orders, p.store, id, p.result.value);
    }
  }
}

=== FILE: order_system.dfy ===
/** Properties that span the catalog, the order store and the request
    boundary: price snapshots, the worked scenarios of the order engine,
    and what the order-request check lets through. */
module OrderSystem {
  import opened Wrappers
  import opened KeyedStore
  import opened Json
  import opened ProductDto
  import opened OrderDto
  import ProductService
  import opened OrderService

  /** Later than every sample timestamp. */
  const Now: int := 1700000000000

  function LaptopOrder(): CreateOrder {
    CreateOrder("1", [OrderItem("1", 1)])
  }

  /** The sample catalog holds the laptop under "1" at 999.99. */
  lemma SampleLaptop()
    ensures "1" in ProductService.Seed().data
    ensures ProductService.Seed().data["1"] == ProductService.Laptop()
  {
    assert ProductService.FindAll(ProductService.Seed())[0] == ProductService.Laptop();
  }

  /** Ordering one laptop from the sample catalog gives a pending order of
      999.99 whose one line carries the catalog price. */
  lemma OrderOneLaptop()
    ensures var created := Create(Seed(), ProductService.Seed(), LaptopOrder(), "100", Now);
            && created.result.Some?
            && created.result.value.total == 99999
            && created.result.value.status == "pending"
            && created.result.value.products == [OrderLine("1", 1, 99999)]
            && FindOne(created.store, "100") == created.result
  {
    var catalog := ProductService.Seed();
    SampleLaptop();
    var created := Create(Seed(), catalog, LaptopOrder(), "100", Now);
    assert AllInCatalog(catalog, LaptopOrder().products);
    var o := created.result.value;
    assert o.products == [OrderLine("1", 1, 99999)];
    assert o.products[1..] == [];
  }

  /** The sample catalog with the laptop repriced to 500.00. */
  function Repriced(): ProductService.Catalog {
    ProductService.Patch(ProductService.Seed(), "1", UpdateProduct(None, Some(50000), None, None, None), Now + 1).store
  }

  /** After the repricing, composing the laptop order sees the new price. */
  lemma RepricedComposition()
    ensures "1" in Repriced().data && Repriced().data["1"].price == 50000
    ensures Compose(Repriced(), LaptopOrder().products).Some?
    ensures Compose(Repriced(), LaptopOrder().products).value.total == 50000
  {
    SampleLaptop();
    var repriced := Repriced();
    assert "1" in repriced.data && repriced.data["1"].price == 50000;
    var priced := Compose(repriced, LaptopOrder().products);
    assert AllInCatalog(repriced, LaptopOrder().products);
    assert priced.value.lines == [OrderLine("1", 1, 50000)];
    assert priced.value.lines[1..] == [];
  }

  /** Repricing the laptop after that order leaves the stored line and total
      at 999.99, while a new composition sees the new price: stored lines are
      snapshots, not references to the catalog. */
  lemma LineIsPriceSnapshot()
    ensures var stored := FindOne(Create(Seed(), ProductService.Seed(), LaptopOrder(), "100", Now).store, "100");
            && stored.Some?
            && stored.value.products == [OrderLine("1", 1, 99999)]
            && stored.value.total == 99999
            && Repriced().data["1"].price == 50000
            && Compose(Repriced(), LaptopOrder().products).value.total == 50000
  {
    OrderOneLaptop();
    RepricedComposition();
  }

  /** Naming a product the catalog lacks aborts creation and writes nothing. */
  lemma MissingProductAborts()
    ensures var r := Create(Seed(), ProductService.Seed(), CreateOrder("9", [OrderItem("missing", 1)]), "100", Now);
            r.result.None? && r.store == Seed()
  {
    var catalog := ProductService.Seed();
    assert "missing" !in catalog.data by {
      assert catalog.keys == ["1", "2", "3"];
    }
  }

  /** Patching sample order "2" to shipped changes its status and update time
      only. */
  lemma ShipSampleOrder()
    ensures var r := Patch(Seed(), "2", UpdateOrder(Some(Shipped)), Now);
            && r.result.Some?
            && r.result.value.status == "shipped"
            && r.result.value.products == Order2().products
            && r.result.value.total == Order2().total
            && r.result.value.updatedAt == Now
  {
    assert Seed().data["2"] == Order2() by {
      assert FindAll(Seed())[1] == Order2();
    }
  }

  /** The order of a request that passed the item rules keeps every stored
      order well formed, so every stored total stays non-negative. */
  lemma ValidatedCreateKeepsInv(orders: Orders, c: Catalog, body: Json, freshId: Id, now: int)
    requires Inv(orders) && ValidateCreateOrder(body).Some?
    ensures Inv(Create(orders, c, ValidateCreateOrder(body).value, freshId, now).store)
    ensures forall k :: k in Create(orders, c, ValidateCreateOrder(body).value, freshId, now).store.data ==>
              Create(orders, c, ValidateCreateOrder(body).value, freshId, now).store.data[k].total >= 0
  {
    var s := Create(orders, c, ValidateCreateOrder(body).value, freshId, now).store;
    CreateKeepsInv(orders, c, ValidateCreateOrder(body).value, freshId, now);
    forall k | k in s.data
      ensures s.data[k].total >= 0
    {
      InvTotalsNonNegative(s, k);
    }
  }

  /** As declared, the request check lets a quantity of -1 through, and the
      engine stores an order with total -999.99 that breaks the invariant. */
  lemma NegativeQuantityStored()
    ensures var req := ValidateCreateOrderAsWritten(NegativeLineBody());
            && req.Some?
            && var r := Create(Seed(), ProductService.Seed(), req.value, "100", Now);
               && r.result.Some?
               && r.result.value.total == -99999
               && !Inv(r.store)
               && All(r.store, StatusOk)
  {
    NestedItemsUnchecked();
    var req := CreateOrder("1", [OrderItem("1", -1)]);
    var catalog := ProductService.Seed();
    SampleLaptop();
    var r := Create(Seed(), catalog, req, "100", Now);
    assert AllInCatalog(catalog, req.products);
    var o := r.result.value;
    assert o.products == [OrderLine("1", -1, 99999)];
    assert o.products[1..] == [];
    assert r.store.data["100"] == o;
    assert !WellFormed(o);
    SeedInv();
    InvStatusesKnown(Seed());
    CreateKeepsStatuses(Seed(), catalog, req, "100", Now);
  }
}

=== FILE: product_dto.dfy ===
/** Product request bodies, their validation, and the stored product record. */
module ProductDto {
  import opened Wrappers
  import opened Json

  /** `CreateProductDto`, also the body of a full update. */
  datatype CreateProduct = CreateProduct(
    name: string, price: nat, description: string, category: string, inStock: bool)

  /** `UpdateProductDto`: every field optional. */
  datatype UpdateProduct = UpdateProduct(
    name: Option<string>, price: Option<nat>, description: Option<string>,
    category: Option<string>, inStock: Option<bool>)

  /** `ProductResponseDto`: the create fields plus id and timestamps. */
  datatype Product = Product(
    id: string, name: string, price: nat, description: string, category: string,
    inStock: bool, createdAt: int, updatedAt: int)

  const Fields: set<string> := {"name", "price", "description", "category", "inStock"}

  /** The pipe's check of a create (or full update) body: all five fields
      present with their types, price at least 0, nothing else. */
  function ValidateCreate(j: Json): (r: Option<CreateProduct>)
    ensures r.Some? ==> j.JObj? && j.fields.Keys == Fields
    ensures r.Some? ==> j.fields["price"] == JNum(r.value.price)
  {
    if !OnlyFields(j, Fields) then None
    else
      var f := j.fields;
      match (Str(Field(f, "name")), NonNegative(Field(f, "price")), Str(Field(f, "description")),
             Str(Field(f, "category")), Bool(Field(f, "inStock")))
      case (Some(n), Some(p), Some(d), Some(c), Some(b)) => Some(CreateProduct(n, p, d, c, b))
      case _ => None
  }

  /** The pipe's check of a patch body: any subset of the five fields, each
      with its type when supplied, price at least 0 when supplied. */
  function ValidateUpdate(j: Json): (r: Option<UpdateProduct>)
    ensures r.Some? ==> j.JObj? && j.fields.Keys <= Fields
    ensures r.Some? ==> (r.value.name.Some? <==> !Field(j.fields, "name").JNull?)
    ensures r.Some? ==> (r.value.price.Some? <==> !Field(j.fields, "price").JNull?)
    ensures r.Some? ==> (r.value.description.Some? <==> !Field(j.fields, "description").JNull?)
    ensures r.Some? ==> (r.value.category.Some? <==> !Field(j.fields, "category").JNull?)
    ensures r.Some? ==> (r.value.inStock.Some? <==> !Field(j.fields, "inStock").JNull?)
    ensures r.Some? && r.value.price.Some? ==> Field(j.fields, "price") == JNum(r.value.price.value)
    ensures r.Some? && r.value.name.Some? ==> Field(j.fields, "name") == JStr(r.value.name.value)
    ensures r.Some? && r.value.description.Some? ==> Field(j.fields, "description") == JStr(r.value.description.value)
    ensures r.Some? && r.value.category.Some? ==> Field(j.fields, "category") == JStr(r.value.category.value)
    ensures r.Some? && r.value.inStock.Some? ==> Field(j.fields, "inStock") == JBool(r.value.inStock.value)
    ensures j.JObj? && Field(j.fields, "price").JNum? && Field(j.fields, "price").n < 0 ==> r.None?
  {
    if !OnlyFields(j, Fields) then None
    else
      var f := j.fields;
      match (Optional(Field(f, "name"), Str), Optional(Field(f, "price"), NonNegative),
             Optional(Field(f, "description"), Str), Optional(Field(f, "category"), Str),
             Optional(Field(f, "inStock"), Bool))
      case (Some(n), Some(p), Some(d), Some(c), Some(b)) => Some(UpdateProduct(n, p, d, c, b))
      case _ => None
  }

  /** The body a client sends to create `c`. */
  function CreateToJson(c: CreateProduct): Json {
    JObj(map["name" := JStr(c.name), "price" := JNum(c.price), "description" := JStr(c.description),
             "category" := JStr(c.category), "inStock" := JBool(c.inStock)])
  }

  /** The body a client sends to patch with `u`: unsupplied fields omitted. */
  function UpdateToJson(u: UpdateProduct): Json {
    var f0 := OptField(map[], "name", u.name, s => JStr(s));
    var f1 := OptField(f0, "price", u.price, (p: nat) => JNum(p));
    var f2 := OptField(f1, "description", u.description, s => JStr(s));
    var f3 := OptField(f2, "category", u.category, s => JStr(s));
    JObj(OptField(f3, "inStock", u.inStock, b => JBool(b)))
  }

  /** Every well-typed create request with a non-negative price is accepted
      as itself, and the only accepted bodies are exactly those: all five
      fields present, nothing else. */
  lemma CreateRoundTrip(c: CreateProduct, j: Json)
    ensures ValidateCreate(CreateToJson(c)) == Some(c)
    ensures ValidateCreate(j) == Some(c) ==> j == CreateToJson(c)
  {
    if ValidateCreate(j) == Some(c) {
      var f := j.fields;
      assert f.Keys == Fields;
      assert f == CreateToJson(c).fields;
    }
  }

  /** Every update field is optional: any patch request, written out with
      only its supplied fields (the empty body included), is accepted as
      itself. */
  lemma UpdateRoundTrip(u: UpdateProduct)
    ensures ValidateUpdate(UpdateToJson(u)) == Some(u)
  {
    var f := UpdateToJson(u).fields;
    assert f.Keys <= Fields;
  }
}

=== FILE: product_service.dfy ===
/** The product catalog: a keyed store of products with merge-style updates,
    category and stock filters, and the lookup the order engine uses. */
module ProductService {
  import opened Wrappers
  import opened Seqs
  import opened KeyedStore
  import opened ProductDto
  import opened SampleTime

  type Catalog = Store<Product>

  function ProductId(p: Product): Id {
    p.id
  }

  /** The catalog is a valid store whose products sit under their own ids. */
  ghost predicate Inv(c: Catalog) {
    Valid(c) && KeyedBy(c, ProductId)
  }

  function Laptop(): Product {
    Product("1", "Laptop", 99999, "High-performance laptop", "Electronics", true, Jan1, Jan1)
  }

  function Smartphone(): Product {
    Product("2", "Smartphone", 59999, "Latest smartphone model", "Electronics", true, Jan1 + Day, Jan1 + Day)
  }

  function Headphones(): Product {
    Product("3", "Headphones", 19999, "Wireless noise-canceling headphones", "Audio", false,
            Jan1 + 2 * Day, Jan1 + 2 * Day)
  }

  /** The three sample products, inserted in order. */
  function Seed(): (c: Catalog)
    ensures Inv(c)
    ensures FindAll(c) == [Laptop(), Smartphone(), Headphones()]
  {
    Store(["1", "2", "3"], map["1" := Laptop(), "2" := Smartphone(), "3" := Headphones()])
  }

  /** `findAll`: every product in insertion order. */
  function FindAll(c: Catalog): (r: seq<Product>)
    requires Valid(c)
    ensures |r| == |c.keys|
    ensures forall p :: p in r <==> p in c.data.Values
  {
    var listing := Values(c);
    assert forall p :: p in c.data.Values ==> exists k :: k in c.data && c.data[k] == p;
    listing
  }

  /** `findOne`, the catalog lookup port: the product stored under `id`. */
  function FindOne(c: Catalog, id: Id): (r: Option<Product>)
    ensures r.Some? <==> id in c.data
    ensures r.Some? ==> r.value == c.data[id]
  {
    Get(c, id)
  }

  /** The category test of `findByCategory`, under the case folding `lower`. */
  function InCategory(category: string, lower: string -> string): Product -> bool {
    (p: Product) => lower(p.category) == lower(category)
  }

  /** `findByCategory`: the products whose category equals `category` once both
      are folded by `lower` (the string's `toLowerCase`), in insertion order. */
  function FindByCategory(c: Catalog, category: string, lower: string -> string): (r: seq<Product>)
    requires Valid(c)
    ensures forall p :: p in r <==> p in FindAll(c) && lower(p.category) == lower(category)
  {
    Filter(FindAll(c), InCategory(category, lower))
  }

  function InStock(p: Product): bool {
    p.inStock
  }

  /** `findInStock`: the products flagged in stock, in insertion order. */
  function FindInStock(c: Catalog): (r: seq<Product>)
    requires Valid(c)
    ensures forall p :: p in r <==> p in FindAll(c) && p.inStock
  {
    Filter(FindAll(c), InStock)
  }

  /** `create`: the request's fields under the fresh id, created and updated
      now. An id already in use is overwritten in place. */
  function Create(c: Catalog, req: CreateProduct, freshId: Id, now: int): (r: Step<Product, Product>)
    requires Valid(c)
    ensures r.result.id == freshId && r.result.createdAt == now && r.result.updatedAt == now
    ensures r.result.name == req.name && r.result.price == req.price && r.result.description == req.description
    ensures r.result.category == req.category && r.result.inStock == req.inStock
    ensures IsPut(c, r.store, freshId, r.result)
    ensures Inv(c) ==> Inv(r.store)
  {
    var p := Product(freshId, req.name, req.price, req.description, req.category, req.inStock, now, now);
    var c' := Put(c, freshId, p);
    PutKeepsKeyedBy(c, c', freshId, p, ProductId);
    Step(c', p)
  }

  /** `update`: all five request fields replace the stored ones; id and
      creation time stay; an unknown id changes nothing. */
  function Update(c: Catalog, id: Id, req: CreateProduct, now: int): (r: Step<Product, Option<Product>>)
    requires Valid(c)
    ensures r.result.Some? <==> id in c.data
    ensures r.result.None? ==> r.store == c
    ensures r.result.Some? ==>
              var p := r.result.value;
              && p.id == c.data[id].id && p.createdAt == c.data[id].createdAt && p.updatedAt == now
              && p.name == req.name && p.price == req.price && p.description == req.description
              && p.category == req.category && p.inStock == req.inStock
              && IsPut(c, r.store, id, p)
    ensures Inv(c) ==> Inv(r.store)
  {
    match FindOne(c, id)
    case None => Step(c, None)
    case Some(prev) =>
      var p := prev.(name := req.name, price := req.price, description := req.description,
                    category := req.category, inStock := req.inStock, updatedAt := now);
      var c' := Put(c, id, p);
      PutKeepsKeyedBy(c, c', id, p, ProductId);
      Step(c', Some(p))
  }

  /** `patch`: each supplied field replaces the stored one, every other field
      keeps its value; id and creation time stay; an unknown id changes
      nothing. */
  function Patch(c: Catalog, id: Id, req: UpdateProduct, now: int): (r: Step<Product, Option<Product>>)
    requires Valid(c)
    ensures r.result.Some? <==> id in c.data
    ensures r.result.None? ==> r.store == c
    ensures r.result.Some? ==>
              var prev := c.data[id];
              var p := r.result.value;
              && p.id == prev.id && p.createdAt == prev.createdAt && p.updatedAt == now
              && p.name == (if req.name.Some? then req.name.value else prev.name)
              && p.price == (if req.price.Some? then req.price.value else prev.price)
              && p.description == (if req.description.Some? then req.description.value else prev.description)
              && p.category == (if req.category.Some? then req.category.value else prev.category)
              && p.inStock == (if req.inStock.Some? then req.inStock.value else prev.inStock)
              && IsPut(c, r.store, id, p)
    ensures Inv(c) ==> Inv(r.store)
  {
    match FindOne(c, id)
    case None => Step(c, None)
    case Some(prev) =>
      var p := prev.(name := req.name.GetOr(prev.name), price := req.price.GetOr(prev.price),
                    description := req.description.GetOr(prev.description),
                    category := req.category.GetOr(prev.category),
                    inStock := req.inStock.GetOr(prev.inStock), updatedAt := now);
      var c' := Put(c, id, p);
      PutKeepsKeyedBy(c, c', id, p, ProductId);
      Step(c', Some(p))
  }

  /** `remove`: reports whether the id was present; afterwards it is not. */
  function Remove(c: Catalog, id: Id): (r: Step<Product, bool>)
    requires Valid(c)
    ensures r.result <==> id in c.data
    ensures FindOne(r.store, id) == None
    ensures IsDelete(c, r.store, id)
    ensures Inv(c) ==> Inv(r.store)
  {
    var step := Delete(c, id);
    DeleteKeepsKeyedBy(c, step.store, id, ProductId);
    step
  }

  /** A product created under a new id joins the end of the listing and of
      every filtered listing it matches. */
  lemma CreateAppends(c: Catalog, req: CreateProduct, freshId: Id, now: int, category: string, lower: string -> string)
    requires Valid(c) && freshId !in c.data
    ensures var r := Create(c, req, freshId, now);
            && FindAll(r.store) == FindAll(c) + [r.result]
            && FindInStock(r.store) == FindInStock(c) + (if req.inStock then [r.result] else [])
            && FindByCategory(r.store, category, lower)
               == FindByCategory(c, category, lower)
                  + (if lower(req.category) == lower(category) then [r.result] else [])
  {
    var r := Create(c, req, freshId, now);
    var p := r.result;
    PutListing(c, r.store, freshId, p);
    var all := FindAll(c);
    assert FindAll(r.store) == all + [p];
    assert [p][1..] == [];
    FilterAppend(all, [p], InStock);
    assert Filter([p], InStock) == (if req.inStock then [p] else []);
    FilterAppend(all, [p], InCategory(category, lower));
    assert Filter([p], InCategory(category, lower))
        == (if lower(req.category) == lower(category) then [p] else []);
  }

  /** ASCII case folding, enough for the sample categories. */
  function AsciiLower(s: string): (r: string)
    ensures |r| == |s|
  {
    seq(|s|, i requires 0 <= i < |s| => if 'A' <= s[i] <= 'Z' then (s[i] as int + 32) as char else s[i])
  }

  lemma FoldSampleCategories()
    ensures AsciiLower("Electronics") == AsciiLower("electronics") == "electronics"
    ensures AsciiLower("Audio") == "audio"
  {
  }

  /** Category search on the sample catalog ignores case. */
  lemma SeedByCategory()
    ensures FindByCategory(Seed(), "electronics", AsciiLower) == [Laptop(), Smartphone()]
  {
    var inCategory := InCategory("electronics", AsciiLower);
    FoldSampleCategories();
    assert inCategory(Laptop()) && inCategory(Smartphone()) && !inCategory(Headphones());
    assert FindAll(Seed()) == [Laptop(), Smartphone()] + [Headphones()];
    FilterAppend([Laptop(), Smartphone()], [Headphones()], inCategory);
    FilterKeepsAll([Laptop(), Smartphone()], inCategory);
    FilterKeepsNone([Headphones()], inCategory);
  }

  /** The headphones are the one sample product out of stock. */
  lemma SeedInStock()
    ensures FindInStock(Seed()) == [Laptop(), Smartphone()]
  {
    assert FindAll(Seed()) == [Laptop(), Smartphone()] + [Headphones()];
    FilterAppend([Laptop(), Smartphone()], [Headphones()], InStock);
    FilterKeepsAll([Laptop(), Smartphone()], InStock);
    FilterKeepsNone([Headphones()], InStock);
  }
}

=== FILE: sample_time.dfy ===
/** Timestamps of the sample data, shared by the three services. Times are
    whole milliseconds since the epoch. */
module SampleTime {
  /** Midnight UTC on 2023-01-01. */
  const Jan1: int := 1672531200000

  /** One day. */
  const Day: int := 86400000
}

=== FILE: seqs.dfy ===
/** Order-preserving filtering of sequences and the distinctness predicate
    used for store keys. */
module Seqs {

  /** No element occurs twice. */
  predicate Distinct<T(==)>(xs: seq<T>) {
    forall i, j :: 0 <= i < j < |xs| ==> xs[i] != xs[j]
  }

  /** The elements of `xs` that satisfy `p`, in their original order
      (the `Array.prototype.filter` the services apply to a store listing). */
  function Filter<T(!new)>(xs: seq<T>, p: T -> bool): (r: seq<T>)
    ensures |r| <= |xs|
    ensures forall i :: 0 <= i < |r| ==> p(r[i])
    ensures forall x :: x in r <==> x in xs && p(x)
    decreases |xs|
  {
    if |xs| == 0 then []
    else (if p(xs[0]) then [xs[0]] else []) + Filter(xs[1..], p)
  }

  /** Filtering commutes with concatenation: the relative order of the kept
      elements is the order they had in the input. */
  lemma {:induction false} FilterAppend<T(!new)>(a: seq<T>, b: seq<T>, p: T -> bool)
    ensures Filter(a + b, p) == Filter(a, p) + Filter(b, p)
    decreases |a|
  {
    if |a| == 0 {
      assert a + b == b;
    } else {
      assert (a + b)[1..] == a[1..] + b;
      FilterAppend(a[1..], b, p);
    }
  }

  /** A filter that keeps everything is the identity. */
  lemma {:induction false} FilterKeepsAll<T(!new)>(xs: seq<T>, p: T -> bool)
    requires forall i :: 0 <= i < |xs| ==> p(xs[i])
    ensures Filter(xs, p) == xs
    decreases |xs|
  {
    if |xs| > 0 {
      FilterKeepsAll(xs[1..], p);
    }
  }

  /** A filter that keeps nothing is empty. */
  lemma {:induction false} FilterKeepsNone<T(!new)>(xs: seq<T>, p: T -> bool)
    requires forall i :: 0 <= i < |xs| ==> !p(xs[i])
    ensures Filter(xs, p) == []
    decreases |xs|
  {
    if |xs| > 0 {
      FilterKeepsNone(xs[1..], p);
    }
  }

  /** Filtering a sequence without repetitions gives one without repetitions. */
  lemma {:induction false} FilterDistinct<T(!new)>(xs: seq<T>, p: T -> bool)
    requires Distinct(xs)
    ensures Distinct(Filter(xs, p))
    decreases |xs|
  {
    if |xs| > 0 {
      var rest := Filter(xs[1..], p);
      FilterDistinct(xs[1..], p);
      assert xs[0] !in xs[1..] by {
        forall i | 0 <= i < |xs[1..]| ensures xs[1..][i] != xs[0] {
          assert xs[1..][i] == xs[i + 1];
        }
      }
      assert xs[0] !in rest;
    }
  }

  /** Every position moved one place right. */
  function Shifted(ps: seq<nat>): (r: seq<nat>)
    ensures |r| == |ps|
    ensures forall i :: 0 <= i < |ps| ==> r[i] == ps[i] + 1
  {
    seq(|ps|, i requires 0 <= i < |ps| => ps[i] + 1)
  }

  /** The positions of `xs` whose element passes `p`, in order. */
  function Positions<T>(xs: seq<T>, p: T -> bool): (r: seq<nat>)
    ensures |r| <= |xs|
    decreases |xs|
  {
    if |xs| == 0 then []
    else
      var rest := Shifted(Positions(xs[1..], p));
      if p(xs[0]) then [0] + rest else rest
  }

  /** `Filter` keeps one element per passing position and reads the input there. */
  lemma {:induction false} PositionsRead<T(!new)>(xs: seq<T>, p: T -> bool)
    ensures |Positions(xs, p)| == |Filter(xs, p)|
    ensures forall i :: 0 <= i < |Positions(xs, p)| ==>
      Positions(xs, p)[i] < |xs| && Filter(xs, p)[i] == xs[Positions(xs, p)[i]]
    decreases |xs|
  {
    if |xs| > 0 {
      PositionsRead(xs[1..], p);
      ReadShifted(xs, Positions(xs[1..], p), Filter(xs[1..], p));
    }
  }

  /** One step of `PositionsRead`: positions read in the tail, shifted by one,
      read the same elements in the whole sequence. */
  lemma ReadShifted<T>(xs: seq<T>, rest: seq<nat>, fr: seq<T>)
    requires |xs| > 0 && |rest| == |fr|
    requires forall i :: 0 <= i < |rest| ==> rest[i] < |xs| - 1 && fr[i] == xs[1..][rest[i]]
    ensures forall i :: 0 <= i < |rest| ==> Shifted(rest)[i] < |xs| && fr[i] == xs[Shifted(rest)[i]]
    ensures forall i :: 0 <= i < |rest| + 1 ==>
      ([0] + Shifted(rest))[i] < |xs| && ([xs[0]] + fr)[i] == xs[([0] + Shifted(rest))[i]]
  {
    var shifted := Shifted(rest);
    forall i | 0 <= i < |rest|
      ensures shifted[i] < |xs| && fr[i] == xs[shifted[i]]
    {
      assert xs[1..][rest[i]] == xs[rest[i] + 1];
    }
  }

  /** The passing positions come in strictly increasing order. */
  lemma {:induction false} PositionsIncreasing<T>(xs: seq<T>, p: T -> bool)
    ensures forall i, j :: 0 <= i < j < |Positions(xs, p)| ==> Positions(xs, p)[i] < Positions(xs, p)[j]
    decreases |xs|
  {
    if |xs| > 0 {
      PositionsIncreasing(xs[1..], p);
      var rest := Positions(xs[1..], p);
      var shifted := Shifted(rest);
      var idx := Positions(xs, p);
      forall i, j | 0 <= i < j < |idx|
        ensures idx[i] < idx[j]
      {
        if p(xs[0]) {
          if i > 0 {
            assert idx[i] == shifted[i - 1];
          }
          assert idx[j] == shifted[j - 1];
        }
      }
    }
  }

  /** A position is listed exactly when its element passes. */
  lemma {:induction false} PositionsCover<T>(xs: seq<T>, p: T -> bool)
    ensures forall k :: 0 <= k < |xs| ==> (p(xs[k]) <==> k in Positions(xs, p))
    decreases |xs|
  {
    if |xs| > 0 {
      var tail := xs[1..];
      PositionsCover(tail, p);
      var rest := Positions(tail, p);
      var shifted := Shifted(rest);
      var idx := Positions(xs, p);
      assert forall i :: 0 <= i < |shifted| ==> shifted[i] >= 1;
      forall k | 0 <= k < |xs|
        ensures p(xs[k]) <==> k in idx
      {
        if k == 0 {
          assert 0 !in shifted;
        } else {
          assert xs[k] == tail[k - 1];
          assert k in shifted <==> k - 1 in rest by {
            if k - 1 in rest {
              var i :| 0 <= i < |rest| && rest[i] == k - 1;
              assert shifted[i] == k;
            }
          }
          assert k in idx <==> k in shifted;
        }
      }
    }
  }

  /** The positions `Filter` keeps: strictly increasing, exactly the positions
      whose element passes, and the filtered sequence reads the input at
      them. So a filter returns exactly the passing elements, in input order. */
  lemma FilterPositions<T(!new)>(xs: seq<T>, p: T -> bool) returns (idx: seq<nat>)
    ensures |idx| == |Filter(xs, p)|
    ensures forall i :: 0 <= i < |idx| ==> idx[i] < |xs| && Filter(xs, p)[i] == xs[idx[i]]
    ensures forall i, j :: 0 <= i < j < |idx| ==> idx[i] < idx[j]
    ensures forall k :: 0 <= k < |xs| ==> (p(xs[k]) <==> k in idx)
  {
    idx := Positions(xs, p);
    PositionsRead(xs, p);
    PositionsIncreasing(xs, p);
    PositionsCover(xs, p);
  }
}

=== FILE: store.dfy ===
/** The keyed, insertion-ordered record store every service keeps its records
    in (a JavaScript `Map<string, Record>`): a sequence of keys in order of
    first insertion plus a map from key to record. */
module KeyedStore {
  import opened Wrappers
  import opened Seqs

  type Id = string

  datatype Store<V> = Store(keys: seq<Id>, data: map<Id, V>)

  /** The outcome of one state transition: the store afterwards and what the
      operation returned to its caller. */
  datatype Step<V, R> = Step(store: Store<V>, result: R)

  /** Every key is listed exactly once, and exactly the mapped keys are listed. */
  ghost predicate Valid<V>(s: Store<V>) {
    && Distinct(s.keys)
    && (forall k :: k in s.data <==> k in s.keys)
  }

  /** `Map.get`: the record under `id`, or nothing. In a valid store a
      record is found exactly for a listed key, and it is the record the
      listing shows at that key's position. */
  function Get<V>(s: Store<V>, id: Id): (r: Option<V>)
    ensures Valid(s) ==> (r.Some? <==> id in s.keys)
    ensures Valid(s) ==> forall i :: 0 <= i < |s.keys| && s.keys[i] == id ==> r == Some(s.data[s.keys[i]])
  {
    if id in s.data then Some(s.data[id]) else None
  }

  /** `s'` is `s` after `Map.set(id, v)`: `id` now holds `v`, every other key
      holds what it held, an existing key keeps its place in the listing
      and a new key is listed last. */
  ghost predicate IsPut<V>(s: Store<V>, s': Store<V>, id: Id, v: V) {
    && Valid(s')
    && Get(s', id) == Some(v)
    && (forall k :: k != id ==> Get(s', k) == Get(s, k))
    && (id in s.data ==> s'.keys == s.keys)
    && (id !in s.data ==> s'.keys == s.keys + [id])
  }

  function Put<V>(s: Store<V>, id: Id, v: V): (r: Store<V>)
    requires Valid(s)
    ensures IsPut(s, r, id, v)
  {
    if id in s.data then Store(s.keys, s.data[id := v])
    else Store(s.keys + [id], s.data[id := v])
  }

  /** The key test that `Delete` filters the listing with. */
  function NotKey(id: Id): Id -> bool {
    k => k != id
  }

  /** `s'` is `s` after `Map.delete(id)`: `id` is gone, every other key holds
      what it held, and the remaining keys keep their relative order. */
  ghost predicate IsDelete<V>(s: Store<V>, s': Store<V>, id: Id) {
    && Valid(s')
    && Get(s', id) == None
    && (forall k :: k != id ==> Get(s', k) == Get(s, k))
    && s'.keys == Filter(s.keys, NotKey(id))
  }

  /** `Map.delete`, which reports whether the key was present. */
  function Delete<V>(s: Store<V>, id: Id): (r: Step<V, bool>)
    requires Valid(s)
    ensures r.result <==> id in s.data
    ensures IsDelete(s, r.store, id)
  {
    FilterDistinct(s.keys, NotKey(id));
    Step(Store(Filter(s.keys, NotKey(id)), s.data - {id}), id in s.data)
  }

  /** `Array.from(map.values())`: the records in listing order. */
  function Values<V>(s: Store<V>): (r: seq<V>)
    requires Valid(s)
    ensures |r| == |s.keys|
    ensures forall i :: 0 <= i < |r| ==> r[i] == s.data[s.keys[i]]
  {
    seq(|s.keys|, i requires 0 <= i < |s.keys| => s.data[s.keys[i]])
  }

  /** Every record is stored under its own id. */
  ghost predicate KeyedBy<V>(s: Store<V>, idOf: V -> Id) {
    forall k :: k in s.data ==> idOf(s.data[k]) == k
  }

  /** Storing a record under its own id keeps every record under its own id. */
  lemma PutKeepsKeyedBy<V>(s: Store<V>, s': Store<V>, id: Id, v: V, idOf: V -> Id)
    requires IsPut(s, s', id, v)
    ensures KeyedBy(s, idOf) && idOf(v) == id ==> KeyedBy(s', idOf)
  {
    if KeyedBy(s, idOf) && idOf(v) == id {
      forall k | k in s'.data
        ensures idOf(s'.data[k]) == k
      {
        assert Get(s', k) == Some(s'.data[k]);
        if k != id {
          assert Get(s, k) == Some(s'.data[k]);
        }
      }
    }
  }

  /** Deleting keeps every remaining record under its own id. */
  lemma DeleteKeepsKeyedBy<V>(s: Store<V>, s': Store<V>, id: Id, idOf: V -> Id)
    requires IsDelete(s, s', id)
    ensures KeyedBy(s, idOf) ==> KeyedBy(s', idOf)
  {
    if KeyedBy(s, idOf) {
      forall k | k in s'.data
        ensures idOf(s'.data[k]) == k
      {
        assert Get(s', k) == Some(s'.data[k]);
        assert Get(s, k) == Some(s'.data[k]);
      }
    }
  }

  /** Every stored record satisfies `ok`. */
  ghost predicate All<V>(s: Store<V>, ok: V -> bool) {
    forall k :: k in s.data ==> ok(s.data[k])
  }

  /** Storing a record that satisfies `ok` keeps every record satisfying it. */
  lemma PutKeepsAll<V>(s: Store<V>, s': Store<V>, id: Id, v: V, ok: V -> bool)
    requires IsPut(s, s', id, v)
    ensures All(s, ok) && ok(v) ==> All(s', ok)
  {
    if All(s, ok) && ok(v) {
      forall k | k in s'.data
        ensures ok(s'.data[k])
      {
        assert Get(s', k) == Some(s'.data[k]);
        if k != id {
          assert Get(s, k) == Some(s'.data[k]);
        }
      }
    }
  }

  /** Deleting keeps every remaining record satisfying `ok`. */
  lemma DeleteKeepsAll<V>(s: Store<V>, s': Store<V>, id: Id, ok: V -> bool)
    requires IsDelete(s, s', id)
    ensures All(s, ok) ==> All(s', ok)
  {
    if All(s, ok) {
      forall k | k in s'.data
        ensures ok(s'.data[k])
      {
        assert Get(s', k) == Some(s'.data[k]);
        assert Get(s, k) == Some(s'.data[k]);
      }
    }
  }

  /** Storing under a new key appends its record to the listing; storing
      under an existing key replaces the record in place. */
  lemma PutListing<V>(s: Store<V>, s': Store<V>, id: Id, v: V)
    requires Valid(s) && IsPut(s, s', id, v)
    ensures id !in s.data ==> Values(s') == Values(s) + [v]
    ensures id in s.data ==>
              && |Values(s')| == |Values(s)|
              && forall i :: 0 <= i < |Values(s)| ==>
                   Values(s')[i] == (if s.keys[i] == id then v else Values(s)[i])
  {
    if id !in s.data {
      assert Get(s', id) == Some(v);
      forall i | 0 <= i < |s.keys|
        ensures Values(s')[i] == Values(s)[i]
      {
        assert s.keys[i] != id;
        assert Get(s', s.keys[i]) == Get(s, s.keys[i]);
      }
    } else {
      forall i | 0 <= i < |s.keys|
        ensures Values(s')[i] == (if s.keys[i] == id then v else Values(s)[i])
      {
        assert Get(s', s.keys[i]) == (if s.keys[i] == id then Some(v) else Get(s, s.keys[i]));
      }
    }
  }

  /** Deleting twice: the second delete finds nothing and changes nothing. */
  lemma DeleteTwice<V>(s: Store<V>, id: Id)
    requires Valid(s)
    ensures !Delete(Delete(s, id).store, id).result
    ensures Delete(Delete(s, id).store, id).store == Delete(s, id).store
  {
    var once := Delete(s, id).store;
    FilterKeepsAll(once.keys, NotKey(id));
    assert once.data - {id} == once.data;
  }
}

=== FILE: user_dto.dfy ===
/** User request bodies, their validation, and the stored user record.
    The `@IsEmail()` check is the parameter `isEmail`: its rules belong to
    the validation library and are not modelled. */
module UserDto {
  import opened Wrappers
  import opened Json

  /** `CreateUserDto`, also the body of a full update. */
  datatype CreateUser = CreateUser(name: string, email: string, age: nat)

  /** `UpdateUserDto`: every field optional. */
  datatype UpdateUser = UpdateUser(name: Option<string>, email: Option<string>, age: Option<nat>)

  /** `UserResponseDto`: the create fields plus id and timestamps. */
  datatype User = User(id: string, name: string, email: string, age: nat, createdAt: int, updatedAt: int)

  const Fields: set<string> := {"name", "email", "age"}

  /** `@IsEmail()` in front of the string it checks. */
  function Email(j: Json, isEmail: string -> bool): (r: Option<string>)
    ensures r.Some? <==> j.JStr? && isEmail(j.s)
    ensures r.Some? ==> r.value == j.s && isEmail(r.value)
  {
    if j.JStr? && isEmail(j.s) then Some(j.s) else None
  }

  /** The pipe's check of a create (or full update) body: name, an email
      address and an age of at least 0, nothing else. */
  function ValidateCreate(j: Json, isEmail: string -> bool): (r: Option<CreateUser>)
    ensures r.Some? ==> j.JObj? && j.fields.Keys == Fields
    ensures r.Some? ==> isEmail(r.value.email)
    ensures r.Some? ==> j.fields["age"] == JNum(r.value.age)
  {
    if !OnlyFields(j, Fields) then None
    else
      var f := j.fields;
      match (Str(Field(f, "name")), Email(Field(f, "email"), isEmail), NonNegative(Field(f, "age")))
      case (Some(n), Some(e), Some(a)) => Some(CreateUser(n, e, a))
      case _ => None
  }

  /** The pipe's check of a patch body: any subset of the three fields, each
      checked as on create when supplied. */
  function ValidateUpdate(j: Json, isEmail: string -> bool): (r: Option<UpdateUser>)
    ensures r.Some? ==> j.JObj? && j.fields.Keys <= Fields
    ensures r.Some? && r.value.email.Some? ==> isEmail(r.value.email.value)
    ensures r.Some? ==> (r.value.name.Some? <==> !Field(j.fields, "name").JNull?)
    ensures r.Some? ==> (r.value.email.Some? <==> !Field(j.fields, "email").JNull?)
    ensures r.Some? ==> (r.value.age.Some? <==> !Field(j.fields, "age").JNull?)
    ensures r.Some? && r.value.age.Some? ==> Field(j.fields, "age") == JNum(r.value.age.value)
    ensures r.Some? && r.value.email.Some? ==> Field(j.fields, "email") == JStr(r.value.email.value)
    ensures r.Some? && r.value.name.Some? ==> Field(j.fields, "name") == JStr(r.value.name.value)
    ensures j.JObj? && Field(j.fields, "age").JNum? && Field(j.fields, "age").n < 0 ==> r.None?
  {
    if !OnlyFields(j, Fields) then None
    else
      var f := j.fields;
      match (Optional(Field(f, "name"), Str), Optional(Field(f, "email"), e => Email(e, isEmail)),
             Optional(Field(f, "age"), NonNegative))
      case (Some(n), Some(e), Some(a)) => Some(UpdateUser(n, e, a))
      case _ => None
  }

  function CreateToJson(c: CreateUser): Json {
    JObj(map["name" := JStr(c.name), "email" := JStr(c.email), "age" := JNum(c.age)])
  }

  function UpdateToJson(u: UpdateUser): Json {
    var f0 := OptField(map[], "name", u.name, s => JStr(s));
    var f1 := OptField(f0, "email", u.email, s => JStr(s));
    JObj(OptField(f1, "age", u.age, (a: nat) => JNum(a)))
  }

  /** A create request is accepted as itself exactly when its email passes
      `@IsEmail()`, and the accepted bodies carry exactly the three fields. */
  lemma CreateRoundTrip(c: CreateUser, j: Json, isEmail: string -> bool)
    ensures ValidateCreate(CreateToJson(c), isEmail) == (if isEmail(c.email) then Some(c) else None)
    ensures ValidateCreate(j, isEmail) == Some(c) ==> j == CreateToJson(c)
  {
    if ValidateCreate(j, isEmail) == Some(c) {
      assert j.fields == CreateToJson(c).fields;
    }
  }

  /** Every update field is optional: a patch request written out with only
      its supplied fields is accepted as itself when a supplied email passes
      `@IsEmail()`. */
  lemma UpdateRoundTrip(u: UpdateUser, isEmail: string -> bool)
    requires u.email.Some? ==> isEmail(u.email.value)
    ensures ValidateUpdate(UpdateToJson(u), isEmail) == Some(u)
  {
    assert UpdateToJson(u).fields.Keys <= Fields;
  }
}

=== FILE: user_service.dfy ===
/** The user store: the same keyed-store pattern as the catalog, with no
    link to products or orders. */
module UserService {
  import opened Wrappers
  import opened KeyedStore
  import opened UserDto
  import opened SampleTime

  type Users = Store<User>

  function UserId(u: User): Id {
    u.id
  }

  /** The store is valid and every user sits under its own id. */
  ghost predicate Inv(s: Users) {
    Valid(s) && KeyedBy(s, UserId)
  }

  function John(): User {
    User("1", "John Doe", "john@example.com", 30, Jan1, Jan1)
  }

  function Jane(): User {
    User("2", "Jane Smith", "jane@example.com", 25, Jan1 + Day, Jan1 + Day)
  }

  /** The two sample users, inserted in order. */
  function Seed(): (s: Users)
    ensures Inv(s)
    ensures FindAll(s) == [John(), Jane()]
  {
    Store(["1", "2"], map["1" := John(), "2" := Jane()])
  }

  /** `findAll`: every user in insertion order. */
  function FindAll(s: Users): (r: seq<User>)
    requires Valid(s)
    ensures |r| == |s.keys|
    ensures forall u :: u in r <==> u in s.data.Values
  {
    var listing := Values(s);
    assert forall u :: u in s.data.Values ==> exists k :: k in s.data && s.data[k] == u;
    listing
  }

  /** `findOne`: the user stored under `id`, or nothing. */
  function FindOne(s: Users, id: Id): (r: Option<User>)
    ensures r.Some? <==> id in s.data
    ensures r.Some? ==> r.value == s.data[id]
  {
    Get(s, id)
  }

  /** `create`: the request's fields under the fresh id, created and updated
      now. An id already in use is overwritten in place. */
  function Create(s: Users, req: CreateUser, freshId: Id, now: int): (r: Step<User, User>)
    requires Valid(s)
    ensures r.result.id == freshId && r.result.createdAt == now && r.result.updatedAt == now
    ensures r.result.name == req.name && r.result.email == req.email && r.result.age == req.age
    ensures IsPut(s, r.store, freshId, r.result)
    ensures Inv(s) ==> Inv(r.store)
  {
    var u := User(freshId, req.name, req.email, req.age, now, now);
    var s' := Put(s, freshId, u);
    PutKeepsKeyedBy(s, s', freshId, u, UserId);
    Step(s', u)
  }

  /** `update`: the three request fields replace the stored ones; id and
      creation time stay; an unknown id changes nothing. */
  function Update(s: Users, id: Id, req: CreateUser, now: int): (r: Step<User, Option<User>>)
    requires Valid(s)
    ensures r.result.Some? <==> id in s.data
    ensures r.result.None? ==> r.store == s
    ensures r.result.Some? ==>
              var u := r.result.value;
              && u.id == s.data[id].id && u.createdAt == s.data[id].createdAt && u.updatedAt == now
              && u.name == req.name && u.email == req.email && u.age == req.age
              && IsPut(s, r.store, id, u)
    ensures Inv(s) ==> Inv(r.store)
  {
    match FindOne(s, id)
    case None => Step(s, None)
    case Some(prev) =>
      var u := prev.(name := req.name, email := req.email, age := req.age, updatedAt := now);
      var s' := Put(s, id, u);
      PutKeepsKeyedBy(s, s', id, u, UserId);
      Step(s', Some(u))
  }

  /** `patch`: each supplied field replaces the stored one, every other field
      keeps its value; id and creation time stay; an unknown id changes
      nothing. */
  function Patch(s: Users, id: Id, req: UpdateUser, now: int): (r: Step<User, Option<User>>)
    requires Valid(s)
    ensures r.result.Some? <==> id in s.data
    ensures r.result.None? ==> r.store == s
    ensures r.result.Some? ==>
              var prev := s.data[id];
              var u := r.result.value;
              && u.id == prev.id && u.createdAt == prev.createdAt && u.updatedAt == now
              && u.name == (if req.name.Some? then req.name.value else prev.name)
              && u.email == (if req.email.Some? then req.email.value else prev.email)
              && u.age == (if req.age.Some? then req.age.value else prev.age)
              && IsPut(s, r.store, id, u)
    ensures Inv(s) ==> Inv(r.store)
  {
    match FindOne(s, id)
    case None => Step(s, None)
    case Some(prev) =>
      var u := prev.(name := req.name.GetOr(prev.name), email := req.email.GetOr(prev.email),
                     age := req.age.GetOr(prev.age), updatedAt := now);
      var s' := Put(s, id, u);
      PutKeepsKeyedBy(s, s', id, u, UserId);
      Step(s', Some(u))
  }

  /** `remove`: reports whether the id was present; afterwards it is not,
      and every other user is as it was. */
  function Remove(s: Users, id: Id): (r: Step<User, bool>)
    requires Valid(s)
    ensures r.result <==> id in s.data
    ensures FindOne(r.store, id) == None
    ensures forall k :: k != id ==> FindOne(r.store, k) == FindOne(s, k)
    ensures IsDelete(s, r.store, id)
    ensures Inv(s) ==> Inv(r.store)
  {
    var step := Delete(s, id);
    DeleteKeepsKeyedBy(s, step.store, id, UserId);
    step
  }

  /** A user created under a new id is listed last; an update keeps the
      user's place in the listing. */
  lemma ListingOrder(s: Users, req: CreateUser, id: Id, now: int)
    requires Valid(s)
    ensures id !in s.data ==> FindAll(Create(s, req, id, now).store) == FindAll(s) + [Create(s, req, id, now).result]
    ensures id in s.data ==> Update(s, id, req, now).store.keys == s.keys
  {
    var r := Create(s, req, id, now);
    PutListing(s, r.store, id, r.result);
  }
}

=== FILE: wrappers.dfy ===
/** The optional value the services return where the source returns `null`. */
module Wrappers {

  datatype Option<+T> = None | Some(value: T) {

    /** The wrapped value, or `default` when there is none. */
    function GetOr(default: T): T {
      match this
      case Some(v) => v
      case None => default
    }
  }
}
